=== FILE: README.md ===
# MRV analytics of the farm monitoring dashboard, in Dafny

This project models the per-farm MRV analytics of the farm monitoring
dashboard (Measurement, Reporting and Verification of agroforestry plots).
It covers:

- vegetation summaries;
- climate anomalies;
- soil organic carbon (SOC) projection;
- forest-change detection;
- terrain classification;
- the alert rules;
- the batch fetch;
- the Sentinel Hub token cache;
- the client-side farm store;
- the in-memory farm registry behind the farms API route.

The model follows the source function by function. Each module matches one
source file:

| module | source file |
|---|---|
| `Utils` | `src/lib/utils.ts` |
| `Climate` | `src/services/climate.ts` |
| `ForestChange` | `src/services/forest-change.ts` |
| `SoilGrids` | `src/services/soilgrids.ts` |
| `Terrain` | `src/services/terrain.ts` |
| `SentinelHub` | `src/services/sentinel-hub.ts` |
| `FarmData` | `src/services/farm-data.ts` |
| `Store` | `src/store/farm-store.ts` |
| `FarmsRoute` | `src/app/api/farms/route.ts` |

`Types` holds the records of `src/types/index.ts`, and `Common` holds the
shared arithmetic.

How the model represents JavaScript's runtime:

- **Numbers** are `real`.
  - `Math.round(x * 10^k) / 10^k` is `Round(x, 10^k)`, which is
    floor(x·10^k + 0.5)/10^k because `Math.round` rounds halves up.
  - NaN appears only where the source reaches 0/0:
    - the NDVI change magnitude of a series with exactly four samples;
    - the stress index of an empty series.

    There it is the `NaN` case of `Num`, and every comparison with it is
    false, as in JavaScript.
- **Parameters** stand for what the model cannot compute itself:
  - transcendental functions (`Math.sqrt`, `Math.atan`, `Math.atan2`,
    `Math.sin`);
  - number and date formatting;
  - `Math.random()` draws;
  - clock readings;
  - the geometry library's area, centroid and bounding box;
  - the answers of the external services (Sentinel Hub, Global Forest Watch,
    SoilGrids, Open-Elevation and the Supabase database).
- **Stateful code** is a class with `modifies` clauses:
  - `SentinelHub.TokenCache` holds the token cache;
  - `Store.FarmStore` is the zustand store;
  - `FarmsRoute.FarmRegistry` holds the route's `inMemoryFarms`.

  Each state-changing method is proved against a pure step function or
  a spec function, and the properties of that function are lemmas.

The model follows the code as written, including in two places where the
code's behaviour differs from what a reader would expect:

- Terrain aspect. The variables named `north`, `south`, `east` and `west`
  (src/services/terrain.ts:59-62) show that a north–south gradient was
  meant to be set against an east–west one. The samples they read make both
  gradients east–west differences. `Terrain.TerrainFromElevations` and
  `Terrain.FetchTerrainData` use the aspect as written; the corrected
  formula is modelled beside it (see Findings).
- Alert boundaries. The vegetation-stress and rainfall alerts become High
  only strictly below −2 (src/services/farm-data.ts:123 and :143), so a
  stress index of exactly −2.00 raises a Medium alert, not a High one.
  `FarmData.AlertRules` states this boundary.

## Model

| member | source | states |
|---|---|---|
| Utils.ZScore | src/lib/utils.ts:40-43 | 0 for a zero standard deviation; otherwise r·σ equals value − mean |
| Utils.ZScoreStrictlyIncreasing | src/lib/utils.ts:40-43 | with σ > 0 the z-score is strictly increasing in the value |
| Utils.CalculateSPI | src/lib/utils.ts:63-65 | SPI is the z-score of the precipitation; with σ > 0 it is positive iff precipitation is above the mean |
| Utils.SPIStrictlyIncreasing | src/lib/utils.ts:63-65 | with σ > 0 more precipitation gives a strictly larger SPI |
| Utils.CalculateTrend | src/lib/utils.ts:45-61 | the accumulation loop returns the ordinary-least-squares slope of the values against their positions, and 0 for fewer than two values |
| Utils.TrendDenominatorPositive | src/lib/utils.ts:53-60 | for two or more values the denominator Σ(i − x̄)² is positive, so the zero-denominator branch is never taken |
| Utils.TrendOfLine | src/lib/utils.ts:45-61 | the trend of the values a + b·i is exactly b |
| Utils.TrendOfConstant | src/lib/utils.ts:45-61 | a constant series has trend 0 |
| Utils.TrendOfIncreasingLinePositive | src/lib/utils.ts:45-61 | a strictly increasing line has a positive trend |
| Utils.TrendShiftInvariant | src/lib/utils.ts:45-61 | adding a constant to every value leaves the trend unchanged |
| Utils.PolygonToWkt | src/lib/utils.ts:67-72 | the WKT exists iff the polygon has a ring; it starts with `POLYGON((` and ends with `))` |
| Utils.WktUsesOnlyOuterRing | src/lib/utils.ts:67-72 | polygons with the same outer ring have the same WKT, so holes are dropped |
| Utils.CsvContent | src/lib/utils.ts:105-118 | no CSV for an empty record list |
| Utils.CsvLines | src/lib/utils.ts:108-118 | one header line from the first record's keys, then one line per record |
| Utils.CsvLineCount | src/lib/utils.ts:105-118 | if no key or cell contains a line break, the CSV has exactly one line break per record |
| Climate.LastThree | src/services/climate.ts:144-145 | `slice(-3)`: the last min(3, n) samples, as a suffix |
| Climate.CalculateClimateAnomalies | src/services/climate.ts:140-166 | the anomalies are the rounded means of the last three samples, 0 for an empty series; ET0 comes from the last temperature, or 22 °C when there is none; the series are passed through |
| Climate.ClimateIgnoresOlderSamples | src/services/climate.ts:144-166 | samples older than the last three change no anomaly and not ET0 |
| Climate.RainfallAnomalyWithinWindow | src/services/climate.ts:144-149 | the rainfall anomaly lies between the smallest and largest of the last three anomalies |
| Climate.TemperatureAnomalyWithinWindow | src/services/climate.ts:145-153 | the same for the temperature anomaly |
| Climate.MonthOfYear | src/services/climate.ts:89 | `getMonth()` of a month index is in 0..11 |
| Climate.MockRainfallSample | src/services/climate.ts:89-103 | a synthetic monthly precipitation is never negative |
| Climate.RainySeasonMonths | src/services/climate.ts:89-91 | the seasonal factor is 1.5 exactly in May–November (months 4–10) and 0.5 otherwise |
| Climate.GenerateMockRainfallData | src/services/climate.ts:79-109 | the loop yields one sample per month from start to end inclusive, sample i built from month start + i and draw i, none negative |
| Climate.MockTemperatureSample | src/services/climate.ts:121-132 | the sample's anomaly is the rounded (3·sin + 4·(draw − ½)) / 3 |
| Climate.MockTemperatureAnomalyBounds | src/services/climate.ts:121-131 | for a sine in [−1, 1] and a draw in [0, 1), the anomaly lies in [−1.67, 1.67] |
| Climate.GenerateMockTemperatureData | src/services/climate.ts:111-138 | the loop yields one sample per month from start to end inclusive, sample i built from month start + i |
| ForestChange.DetectForestChangeFromNDVI | src/services/forest-change.ts:85-106 | with fewer than four samples nothing is detected and the magnitude is 0; otherwise loss iff the change is below −threshold, gain iff it is above +threshold, and the magnitude is rounded to 3 decimals |
| ForestChange.ChangeMagnitudeOfWindows | src/services/forest-change.ts:93-99 | the change is the mean of the last four NDVI values minus the mean of the earlier ones |
| ForestChange.LossAndGainExclusive | src/services/forest-change.ts:101-103 | with a non-negative threshold, loss and gain are never both detected |
| ForestChange.NoHistoryNoChange | src/services/forest-change.ts:93-104 | exactly four samples give an empty history: the magnitude is NaN and nothing is detected |
| ForestChange.ThresholdIsExclusive | src/services/forest-change.ts:102-103 | a change of exactly ±threshold is not detected |
| ForestChange.StepChange | src/services/forest-change.ts:93-104 | a step from a constant h to a constant v is a loss iff v − h < −threshold and a gain iff v − h > threshold |
| ForestChange.OrZero | src/services/forest-change.ts:50-51 | a missing area counts as 0 |
| ForestChange.ForestChangeFromGfw | src/services/forest-change.ts:50-59 | loss or gain is detected iff its area exceeds 0.1 ha; areas are rounded to 2 decimals; the change is dated today iff either area is positive |
| ForestChange.GfwDetectionIsDated | src/services/forest-change.ts:50-59 | a detected change always has a date, and its rounded area is at least 0.1 ha |
| ForestChange.SmallLossDatedButNotDetected | src/services/forest-change.ts:54-58 | a loss in (0, 0.1] ha is dated today but not flagged as detected |
| ForestChange.FetchForestChangeData | src/services/forest-change.ts:17-64 | without an API key, or when the request fails, `generateMockForestChangeData` of the polygon's box and draws; otherwise the mapping of the service's answer |
| ForestChange.FetchedSyntheticAreasBounded | src/services/forest-change.ts:17-83 | on the synthetic path the flags follow the draws and the areas lie between 0 and 5 % (loss) or 8 % (gain) of the box area, rounded |
| ForestChange.AreaApprox | src/services/forest-change.ts:67-68 | the bounding-box area approximation is never negative |
| ForestChange.GenerateMockForestChangeData | src/services/forest-change.ts:66-83 | loss iff its draw is below 0.15, gain iff its draw is below 0.25; an undetected area is 0; dated iff something is detected |
| ForestChange.MockAreaBounded | src/services/forest-change.ts:73-74 | a synthetic area lies between 0 and the rounded share of the box area |
| ForestChange.MockForestAreasBounded | src/services/forest-change.ts:66-83 | synthetic loss is at most 5 % and gain at most 8 % of the box area, after rounding |
| SoilGrids.FindLayer | src/services/soilgrids.ts:37 | `find`: none iff no layer has the name; otherwise the first layer that has it |
| SoilGrids.FindDepth | src/services/soilgrids.ts:42 | none iff no depth has the label; otherwise the first depth that has it |
| SoilGrids.ParseSOCBaseline | src/services/soilgrids.ts:37-55 | the first `soc` layer's first `0-30cm` depth gives baseline = projected = mean/10, delta 0 and uncertainty = uncertainty/10; no layer or no depth gives nothing |
| SoilGrids.GenerateMockSOCData | src/services/soilgrids.ts:62-74 | baseline and uncertainty are the rounded latitude-dependent synthetic value and 15 % of it |
| SoilGrids.MockSOCBounds | src/services/soilgrids.ts:62-74 | for draws in [0, 1), baseline ≥ 20, uncertainty ≥ 3 and delta in [−1.5, 3.5] |
| SoilGrids.FetchSOCBaseline | src/services/soilgrids.ts:20-60 | a failed request or an answer without the topsoil value falls back to the synthetic data; otherwise the parsed baseline with no change |
| SoilGrids.BulkDensityFromLayers | src/services/soilgrids.ts:113-119 | the first `bdod` layer's `0-30cm` mean divided by 100, or 1.3 when the layer or the depth is missing |
| SoilGrids.FetchBulkDensity | src/services/soilgrids.ts:96-124 | an answer is read as above; a failure gives a value in [1.2, 1.4) |
| SoilGrids.EstimateSOCChange | src/services/soilgrids.ts:76-94 | the baseline is kept; projected = round(baseline + delta), delta = round(2 % · baseline · factor sum · years), uncertainty = round(30 % · abs(delta)) ≥ 0 |
| SoilGrids.FactorSums | src/services/soilgrids.ts:82-83 | the factor sum is 0.7 or 0.4 for a rising NDVI and −0.1 or −0.4 otherwise; it is positive iff NDVI is rising |
| SoilGrids.DeltaSignFollowsTrend | src/services/soilgrids.ts:76-94 | for a positive baseline and horizon, the projected change is positive iff the NDVI trend is positive; the rounded delta has the same sign |
| SoilGrids.ProjectionNearBaselinePlusDelta | src/services/soilgrids.ts:85-90 | the rounded projection is within 0.05 of baseline + unrounded delta |
| Terrain.ClassifySlope | src/services/terrain.ts:95-101 | the slope class is the number of band boundaries (5°, 15°, 25°, 35°) reached |
| Terrain.ClassifySlopeMonotone | src/services/terrain.ts:95-101 | a steeper slope never gets a gentler class |
| Terrain.ARRImpliesIFM | src/services/terrain.ts:103-109 | every ARR-suitable terrain is IFM-suitable |
| Terrain.IFMIffNotVerySteep | src/services/terrain.ts:95-109 | IFM-suitable iff the slope class is not Very Steep |
| Terrain.AspectIsSector | src/services/terrain.ts:69-76 | for an angle in [−180°, 180°] the label is that of its 45° sector centred on the compass point |
| Terrain.Corner | src/services/terrain.ts:59-62 | `e[i] \|\| e[0]`: a missing or zero corner falls back to the centre elevation |
| Terrain.AspectBlindToNorthSouth | src/services/terrain.ts:58-67 | as written: a plane rising to the north and the same plane rising to the south get the same aspect, whatever atan2 gives |
| Terrain.CorrectedAspectSeesNorthSouth | src/services/terrain.ts:58-77 | with edge-to-edge gradients, a plane rising to the north gets N and one rising to the south gets S |
| Terrain.Relief | src/services/terrain.ts:35-42 | max − min elevation is ≥ 0 and bounds every pairwise difference |
| Terrain.TerrainFromElevations | src/services/terrain.ts:33-51 | elevation is the rounded centre sample; slope is the rounded atan(relief / diagonal); aspect is `calculateAspect` as written |
| Terrain.FetchedAspectBlindToNorthSouth | src/services/terrain.ts:33-67 | the fetched terrain of a slope rising to the north and of the same slope rising to the south carry the same aspect |
| Terrain.GenerateMockTerrainData | src/services/terrain.ts:79-93 | aspect is label ⌊8·draw⌋, slope round(5 + 25·draw), elevation the rounded latitude-dependent value |
| Terrain.MockTerrainSlope | src/services/terrain.ts:79-109 | a synthetic slope lies in [5°, 30°]: IFM-suitable, never Flat or Very Steep |
| Terrain.FetchTerrainData | src/services/terrain.ts:15-56 | a failed request gives the synthetic terrain; an answer gives the rounded centre elevation and the aspect of `calculateAspect` as written |
| SentinelHub.TokenStep | src/services/sentinel-hub.ts:16-43 | a fresh cached token is returned unchanged; missing credentials or a failed request fail with the cache unchanged; otherwise the new token is cached until (expires_in − 60) s after the answer |
| SentinelHub.RefreshedTokenReusedUntilExpiry | src/services/sentinel-hub.ts:17-40 | a refreshed token is served from the cache until one minute before its announced expiry, and is stale from then on |
| SentinelHub.RefreshAtExpiry | src/services/sentinel-hub.ts:17-19 | at exactly `expiresAt` the endpoint's new token is used |
| SentinelHub.TokenCache.GetAccessToken | src/services/sentinel-hub.ts:16-43 | the new cache and result are one `TokenStep` of the old cache; a success is the cached token |
| SentinelHub.DatePart | src/services/sentinel-hub.ts:144 | `split('T')[0]` is the longest prefix without 'T' |
| SentinelHub.MapStatistics | src/services/sentinel-hub.ts:143-148 | one sample per interval with its date part, the mean or 0 in the index's field, 0 elsewhere and no cloud cover (EVI: 209-214) |
| SentinelHub.MapStatisticsAppend | src/services/sentinel-hub.ts:143-148 | mapping keeps interval order: it distributes over concatenation |
| SentinelHub.Clamp01 | src/services/sentinel-hub.ts:236-237 | the clamp lies in [0, 1] and is the identity there |
| SentinelHub.MockVegetationSample | src/services/sentinel-hub.ts:231-238 | synthetic NDVI and EVI are in [0, 1] |
| SentinelHub.GenerateMockVegetationData | src/services/sentinel-hub.ts:221-245 | one sample every 7 days while the day is not past the end, sample i from day start + 7i; all indices in [0, 1] |
| FarmData.SummarizeVegetation | src/services/farm-data.ts:24-46 | current values are the last ones (0 if none), trends are the least-squares slopes, stress is the z-score of the last NDVI; each rounded as the source does |
| FarmData.EmptyVegetationSummary | src/services/farm-data.ts:26-44 | an empty series gives zero current values and trends and a NaN stress index |
| FarmData.StressOfConstantSeries | src/services/farm-data.ts:33-37 | a constant NDVI series has zero spread and stress 0 |
| FarmData.StressSign | src/services/farm-data.ts:33-37 | with a positive spread, stress is negative iff the latest NDVI is below the mean |
| FarmData.FuseForestChange | src/services/farm-data.ts:60-71 | flags are the OR of the external and NDVI detections; areas and date come from the external source |
| FarmData.ShortSeriesKeepsExternalFlags | src/services/farm-data.ts:60-71 | with at most four NDVI samples the fused record is the external one |
| FarmData.AlertRules | src/services/farm-data.ts:110-160 | each alert kind is present iff its rule fires (stress < −1.5, loss detected, rainfall anomaly < −1.5, abs(temperature anomaly) > 1.5), and it is High iff its second threshold holds |
| FarmData.AlertsOrderedAndBounded | src/services/farm-data.ts:110-160 | alerts follow rule order, number at most four and are never Low |
| FarmData.GenerateAlerts | src/services/farm-data.ts:110-160 | the pushes produce exactly the rule table |
| FarmData.ModerateTemperatureAlert | src/services/farm-data.ts:149-157 | a temperature anomaly of magnitude at most 2 raises at most a Medium temperature alert |
| FarmData.MockTemperaturesNeverHighAlert | src/services/farm-data.ts:149-157 | if every temperature anomaly is in [−1.67, 1.67], no temperature alert is High |
| FarmData.FetchFarmDetailData | src/services/farm-data.ts:19-108 | succeeds iff the geometry library accepts the polygon; the record is consistent with its summary, the alerts are the rule table, SOC is projected from the synthetic baseline of the centroid with the unrounded NDVI trend over 5 years; the summary's `last_updated` is the request's ISO time; vegetation, climate and terrain are the summary, the anomalies and the synthetic terrain of its inputs, and forest change fuses the synthetic external signal with the NDVI detector |
| FarmData.FetchedSOCBaselineBounded | src/services/farm-data.ts:52-89 | with SOC draws in [0, 1), a fetched record and its summary report a SOC baseline of at least 20 t/ha |
| FarmData.FetchedSyntheticTemperaturesNeverHighAlert | src/services/farm-data.ts:49-157 | a fetched record whose temperatures come from the synthetic generator at its default 22 °C mean never carries a High temperature alert |
| FarmData.GenerateMRVSummary | src/services/farm-data.ts:162-164 | for any record, whatever the farm argument, the stored summary; for a record that agrees with its summary, that summary carries the record's farm id, alerts and forest flags |
| FarmData.BatchFetchFarmData | src/services/farm-data.ts:166-179 | a farm id is in the result iff some fetch for it succeeded, and it maps to the last such success |
| Store.FarmStore.constructor | src/store/farm-store.ts:25-30 | the store starts empty, with no selection, not loading and no error |
| Store.FarmStore.SetFarms | src/store/farm-store.ts:32 | replaces the farm list; nothing else changes |
| Store.FarmStore.AddFarm | src/store/farm-store.ts:34-36 | appends the farm at the end; nothing else changes |
| Store.ApplyPatch | src/store/farm-store.ts:40 | every field takes the update's value when the update carries one and keeps its own otherwise; `updated_at` is the new timestamp even when the update carries one |
| Store.EmptyPatchTouchesOnlyTimestamp | src/store/farm-store.ts:40 | an empty update only refreshes `updated_at` |
| Store.UpdateMatching | src/store/farm-store.ts:38-42 | the length is kept; exactly the farms with the id are patched |
| Store.FarmStore.UpdateFarm | src/store/farm-store.ts:38-42 | the list becomes the patched list; nothing else changes |
| Store.RemoveId | src/store/farm-store.ts:45 | no farm with the id remains, and every farm with another id does |
| Store.RemoveIdAppend | src/store/farm-store.ts:45 | removal distributes over concatenation, so the remaining farms keep their order |
| Store.RemoveIdAbsent | src/store/farm-store.ts:45 | deleting an absent id leaves the list as it is |
| Store.FarmStore.DeleteFarm | src/store/farm-store.ts:44-47 | removes every farm with the id; the selection is cleared iff it was that id; nothing else changes |
| Store.FarmStore.SelectFarm | src/store/farm-store.ts:49 | sets the selection; nothing else changes |
| Store.Lookup | src/store/farm-store.ts:69 | `Map.get`: nothing iff the key is absent, otherwise a stored record |
| Store.SetEntry | src/store/farm-store.ts:51-55 | `Map.set`: an existing key keeps its place, a new key is appended |
| Store.SetEntryKeys | src/store/farm-store.ts:51-55 | setting a key never reorders the keys |
| Store.SetEntryLookupSame | src/store/farm-store.ts:53 | the set key maps to the new record |
| Store.SetEntryLookupOther | src/store/farm-store.ts:51-55 | every other key keeps its record |
| Store.SetEntryDistinct | src/store/farm-store.ts:51-55 | keys stay distinct |
| Store.FarmStore.SetFarmData | src/store/farm-store.ts:51-55 | only the given key changes, and it maps to the record; nothing else changes |
| Store.FarmStore.SetLoading | src/store/farm-store.ts:57 | sets the loading flag; nothing else changes |
| Store.FarmStore.SetError | src/store/farm-store.ts:59 | sets the error; nothing else changes |
| Store.FarmStore.GetSelectedFarm | src/store/farm-store.ts:61-64 | the first farm with the selected id; nothing when nothing is selected or no farm matches |
| Store.FarmStore.GetSelectedFarmData | src/store/farm-store.ts:66-70 | nothing when no id (or the empty id) is selected, otherwise the stored record for it |
| Store.FarmStore.GetAllMRVSummaries | src/store/farm-store.ts:72-79 | exactly one summary per stored record, in the Map's order |
| FarmsRoute.Rectangle | src/app/api/farms/route.ts:11 | the demonstration rings are closed five-point rectangles |
| FarmsRoute.DemoFarm | src/app/api/farms/route.ts:6-137 | every demonstration farm lies in Guatemala |
| FarmsRoute.NewFarm | src/app/api/farms/route.ts:177-192 | the new farm takes the body's fields, farmer `Unknown` when none is given, altitude 1500, the library's centroid, the area within 0.005 ha of the computed one, and the two clock readings as `created_at` and `updated_at` |
| FarmsRoute.NewFarmAreaOnGrid | src/app/api/farms/route.ts:186 | an area already on the 0.01 ha grid is stored exactly |
| FarmsRoute.Status | src/app/api/farms/route.ts:170-217 | POST answers 201, 400 or 500 |
| FarmsRoute.PostStep | src/app/api/farms/route.ts:164-219 | unparseable body or geometry failure: 500; missing field: 400; both leave the list unchanged; without a database or on an insert error the farm is appended and returned with 201; a stored row is returned without appending; a throwing insert gives 500 |
| FarmsRoute.PostKeepsRegistryShape | src/app/api/farms/route.ts:139-219 | POST never alters the demonstration farms and appends only complete farms at altitude 1500 |
| FarmsRoute.PostAppendsAtMostOne | src/app/api/farms/route.ts:201-211 | a non-201 answer leaves the list unchanged; a changed list has exactly the returned farm appended |
| FarmsRoute.FarmRegistry.constructor | src/app/api/farms/route.ts:139 | the list starts as the ten demonstration farms |
| FarmsRoute.FarmRegistry.Post | src/app/api/farms/route.ts:164-219 | the new list and answer are one `PostStep` of the old list, and the registry's shape is kept |
| FarmsRoute.FarmRegistry.Get | src/app/api/farms/route.ts:141-162 | the in-memory list when there is no database, it errors or it throws; otherwise its rows, or none for a null answer |

## Left out

- Network I/O: HTTP requests to Sentinel Hub, Global Forest Watch, SoilGrids, Open-Elevation, CHIRPS and ERA5, and the Supabase client. Their answers are parameters; request construction (URLs, evalscripts, headers) is not modelled.
- `fetchCHIRPSData`, `fetchERA5Data`, `fetchNDVITimeSeries`, `fetchEVITimeSeries` and `fetchTreeCoverExtent`: the model has only the mappings of their answers and their synthetic fallbacks, because everything else they do is a network call.
- The geometry library (`calculatePolygonArea`, `calculateCentroid`, `getBoundingBox`): its results are parameters, with None when it throws.
- `wktToPolygon`, `generateId`, `formatDate`, `formatNumber`, `cn`, `downloadJSON` and the browser download in `downloadCSV`: string parsing, random ids, locale formatting and DOM work. The CSV text itself is modelled.
- The UI components, charts and map are not part of this model.
- Floating point: numbers are exact reals. Overflow, rounding error and IEEE special values are not modelled, except NaN in the two 0/0 cases named above.
- Transcendental functions and formatting (`Math.sqrt`, `Math.atan`, `Math.atan2`, `Math.sin`, `toFixed`, `toISOString`) are parameters. Properties that need their values say so in their `requires`.
- Calendar arithmetic: dates are day and month indices, and formatting them is a parameter. JavaScript's day-of-month overflow in `setMonth` is not modelled.
- Randomness and clocks: each `Math.random()` and `Date.now()` is a parameter. The model does not fix the order in which one call consumes its draws. In `FarmData.FetchFarmDetailData` the four alert ids share one `Date.now()` reading (`stamp`), and the alert dates and the summary's `last_updated` share one ISO reading (`now`), where the source reads the clock separately for each.
- Store.UpdateMatching: one `now` stamps every matching farm, where the source calls `new Date()` once per matched farm.
- FarmData.FetchFarmDetailData: the vegetation, rainfall and temperature series are parameters and any series is accepted, where the source always builds them with the synthetic generators and their default arguments (base NDVI 0.65, base EVI 0.45, mean precipitation 150 mm, mean temperature 22 °C). Only the temperature bound is carried to the fetched record, by `FarmData.FetchedSyntheticTemperaturesNeverHighAlert`.
- FarmData.BatchFetchFarmData: each awaited fetch is an outcome parameter, and a rejected fetch is a `Failure`. The result is a Dafny `map`, so the Map's insertion order is not modelled.
- Terrain.FetchTerrainData: requires a non-empty elevation answer. The source would read an undefined centre elevation from an empty one.
- Terrain.GenerateMockTerrainData: requires the aspect draw to lie in [0, 1), as `Math.random()` guarantees.
- SoilGrids.ParseSOCBaseline: the `range` of a depth is not modelled; only its label and values are read.
- Store: zustand's subscription and rendering machinery is out. The store is one object whose actions replace fields.
- FarmsRoute: `console` logging and the JSON response envelope are out. Responses carry only the status kind and the farm.

## Findings

| source | as written | input that shows it | evidently intended | confidence | as-written member | corrected member |
|---|---|---|---|---|---|---|
| src/services/terrain.ts:58-67 | `north` reads sample 3 (the south-east corner), `south` sample 1 (south-west), `east` sample 2 (north-east) and `west` sample 4 (north-west), so both gradients are east–west differences | elevations [c, 100, 200, 100, 200] (north edge high) and [c, 200, 100, 200, 100] (south edge high) give the same aspect | the north–south gradient is the north edge minus the south edge, and the east–west gradient is the east edge minus the west edge | medium, not executed | Terrain.AspectBlindToNorthSouth | Terrain.CorrectedAspectSeesNorthSouth |

`Terrain.CalculateAspect` models the code as written, and `Terrain.TerrainFromElevations` and `Terrain.FetchTerrainData` use it, so the fetched terrain has the same blindness (`Terrain.FetchedAspectBlindToNorthSouth`). `Terrain.CalculateAspectCorrected` is the intended formula, with its property proved.

=== FILE: climate.dfy ===
/** Climate analysis of src/services/climate.ts: the anomaly summary over the
    most recent samples, the ET0 approximation and the synthetic monthly series.
    Calendar dates of the synthetic series are month indices (months since
    an epoch), so that `getMonth()` is the index modulo 12. */
module Climate {
  import opened Common
  import opened Types
  import Utils

  /** `slice(-3)`: the last min(3, n) elements. */
  function LastThree<T>(s: seq<T>): (r: seq<T>)
    ensures |r| == if |s| < 3 then |s| else 3
    ensures r == s[|s| - |r|..]
  {
    if |s| <= 3 then s else s[|s| - 3..]
  }

  function RainfallAnomalies(s: seq<RainfallData>): (r: seq<real>)
    ensures |r| == |s| && forall i :: 0 <= i < |s| ==> r[i] == s[i].anomaly
  {
    Project(s, (d: RainfallData) => d.anomaly)
  }

  function TemperatureAnomalies(s: seq<TemperatureData>): (r: seq<real>)
    ensures |r| == |s| && forall i :: 0 <= i < |s| ==> r[i] == s[i].anomaly
  {
    Project(s, (d: TemperatureData) => d.anomaly)
  }

  /** The guarded average of src/services/climate.ts:147-153. */
  function MeanOrZero(xs: seq<real>): real {
    if |xs| > 0 then Mean(xs) else 0.0
  }

  /** The rainfall anomaly before rounding. */
  function RecentRainfallAnomaly(rainfall: seq<RainfallData>): real {
    MeanOrZero(RainfallAnomalies(LastThree(rainfall)))
  }

  /** The temperature anomaly before rounding. */
  function RecentTemperatureAnomaly(temperature: seq<TemperatureData>): real {
    MeanOrZero(TemperatureAnomalies(LastThree(temperature)))
  }

  /** `calculateET0`, a Hargreaves-style approximation; `sqrt` is Math.sqrt. */
  function CalculateET0(tempC: real, sqrt: real -> real): real {
    0.0023 * (tempC + 17.8) * sqrt(Abs(tempC)) * 0.408
  }

  /** `calculateClimateAnomalies`. */
  function CalculateClimateAnomalies(rainfall: seq<RainfallData>, temperature: seq<TemperatureData>,
                                     sqrt: real -> real): (c: ClimateData)
    ensures c.rainfall_time_series == rainfall && c.temperature_time_series == temperature
    ensures c.rainfall_anomaly == Round(RecentRainfallAnomaly(rainfall), 100.0)
    ensures c.temperature_anomaly == Round(RecentTemperatureAnomaly(temperature), 100.0)
    ensures |rainfall| == 0 ==> c.rainfall_anomaly == 0.0
    ensures |temperature| == 0 ==> c.temperature_anomaly == 0.0
    ensures c.et0 == Round(CalculateET0(if |temperature| > 0 then temperature[|temperature| - 1].temp_c else 22.0, sqrt), 10.0)
  {
    var recentTemperature := LastThree(temperature);
    assert |recentTemperature| > 0 ==> recentTemperature[|recentTemperature| - 1] == temperature[|temperature| - 1];
    var et0 := CalculateET0(
      if |recentTemperature| > 0 then recentTemperature[|recentTemperature| - 1].temp_c else 22.0, sqrt);
    RoundOnGrid(0, 100.0);
    assert Round(0.0, 100.0) == 0.0;
    assert |rainfall| == 0 ==> RecentRainfallAnomaly(rainfall) == 0.0;
    assert |temperature| == 0 ==> RecentTemperatureAnomaly(temperature) == 0.0;
    ClimateData(
      Round(RecentRainfallAnomaly(rainfall), 100.0),
      Round(RecentTemperatureAnomaly(temperature), 100.0),
      Round(et0, 10.0),
      rainfall,
      temperature)
  }

  /** Samples older than the last three never influence either anomaly, nor ET0. */
  lemma ClimateIgnoresOlderSamples(olderRain: seq<RainfallData>, rain: seq<RainfallData>,
                                   olderTemp: seq<TemperatureData>, temp: seq<TemperatureData>,
                                   sqrt: real -> real)
    requires |rain| >= 3 && |temp| >= 3
    ensures var long := CalculateClimateAnomalies(olderRain + rain, olderTemp + temp, sqrt);
            var short := CalculateClimateAnomalies(rain, temp, sqrt);
            long.rainfall_anomaly == short.rainfall_anomaly
            && long.temperature_anomaly == short.temperature_anomaly
            && long.et0 == short.et0
  {
    assert LastThree(olderRain + rain) == LastThree(rain);
    assert LastThree(olderTemp + temp) == LastThree(temp);
    assert (olderTemp + temp)[|olderTemp + temp| - 1] == temp[|temp| - 1];
  }

  /** Before rounding, the rainfall anomaly lies between any bounds of the
      anomalies of the averaged (last three) samples. */
  lemma RainfallAnomalyWithinWindow(rainfall: seq<RainfallData>, lo: real, hi: real)
    requires |rainfall| > 0
    requires forall i :: |rainfall| - |LastThree(rainfall)| <= i < |rainfall| ==> lo <= rainfall[i].anomaly <= hi
    ensures lo <= RecentRainfallAnomaly(rainfall) <= hi
  {
    var w := LastThree(rainfall);
    var xs := RainfallAnomalies(w);
    forall i | 0 <= i < |xs| ensures lo <= xs[i] <= hi {
      assert xs[i] == rainfall[|rainfall| - |w| + i].anomaly;
    }
    MeanWithinBounds(xs, lo, hi);
  }

  /** Before rounding, the temperature anomaly lies between any bounds of the
      anomalies of the averaged (last three) samples. */
  lemma TemperatureAnomalyWithinWindow(temperature: seq<TemperatureData>, lo: real, hi: real)
    requires |temperature| > 0
    requires forall i :: |temperature| - |LastThree(temperature)| <= i < |temperature| ==> lo <= temperature[i].anomaly <= hi
    ensures lo <= RecentTemperatureAnomaly(temperature) <= hi
  {
    var w := LastThree(temperature);
    var xs := TemperatureAnomalies(w);
    forall i | 0 <= i < |xs| ensures lo <= xs[i] <= hi {
      assert xs[i] == temperature[|temperature| - |w| + i].anomaly;
    }
    MeanWithinBounds(xs, lo, hi);
  }

  // ------------------------------------------------------ synthetic series

  /** The default `meanTemp` of the synthetic temperature series, in °C. */
  const DefaultMeanTemp: real := 22.0
  /** The fixed standard deviation of the synthetic temperature series. */
  const TemperatureStdDev: real := 3.0

  /** `getMonth()` of a month index: 0 for January .. 11 for December. */
  function MonthOfYear(monthIndex: int): (m: int)
    ensures 0 <= m < 12
  {
    monthIndex % 12
  }

  /** 1.5 in the rainy season (0-based months 4 to 10, May to November), 0.5 otherwise. */
  function SeasonalFactor(month: int): real {
    if month >= 4 && month <= 10 then 1.5 else 0.5
  }

  /** The number of months from `startMonth` to `endMonth` inclusive, which is
      how many times `while (currentDate <= endDate)` runs when it steps one month. */
  function MonthCount(startMonth: int, endMonth: int): nat {
    if startMonth > endMonth then 0 else endMonth - startMonth + 1
  }

  /** One sample of `generateMockRainfallData`; `draw` is the Math.random() of that month. */
  function MockRainfallSample(monthIndex: int, date: string, draw: real, meanPrecipitation: real): (d: RainfallData)
    ensures d.precipitation_mm >= 0.0
    ensures d.date == date
  {
    var stdDev := meanPrecipitation * 0.3;
    var seasonalFactor := SeasonalFactor(MonthOfYear(monthIndex));
    var precipitation := Max(0.0, meanPrecipitation * seasonalFactor + (draw - 0.5) * stdDev * 2.0);
    var anomaly := Utils.CalculateSPI(precipitation, meanPrecipitation, stdDev);
    RoundNonNegative(precipitation, 10.0);
    RainfallData(date, Round(precipitation, 10.0), Round(anomaly, 100.0))
  }

  /** The rainy-season factor applies exactly to the months May to November. */
  lemma RainySeasonMonths(monthIndex: int)
    ensures SeasonalFactor(MonthOfYear(monthIndex)) == 1.5 <==> 4 <= monthIndex % 12 <= 10
    ensures SeasonalFactor(MonthOfYear(monthIndex)) == 0.5 <==> !(4 <= monthIndex % 12 <= 10)
  {
  }

  /** `generateMockRainfallData`: one sample per month from the start month to
      the end month; `formatMonth` is formatDate of a month and `draws[i]` the
      random draw of the i-th month. */
  method GenerateMockRainfallData(startMonth: int, endMonth: int, draws: seq<real>,
                                  formatMonth: int -> string, meanPrecipitation: real)
    returns (data: seq<RainfallData>)
    requires |draws| >= MonthCount(startMonth, endMonth)
    ensures |data| == MonthCount(startMonth, endMonth)
    ensures forall i :: 0 <= i < |data| ==>
      data[i] == MockRainfallSample(startMonth + i, formatMonth(startMonth + i), draws[i], meanPrecipitation)
    ensures forall i :: 0 <= i < |data| ==> data[i].precipitation_mm >= 0.0
  {
    data := [];
    var currentMonth := startMonth;
    while currentMonth <= endMonth
      invariant startMonth <= currentMonth
      invariant startMonth <= endMonth ==> currentMonth <= endMonth + 1
      invariant startMonth > endMonth ==> currentMonth == startMonth
      invariant |data| == currentMonth - startMonth <= MonthCount(startMonth, endMonth)
      invariant forall i :: 0 <= i < |data| ==>
        data[i] == MockRainfallSample(startMonth + i, formatMonth(startMonth + i), draws[i], meanPrecipitation)
      decreases endMonth - currentMonth
    {
      var sample := MockRainfallSample(currentMonth, formatMonth(currentMonth),
                                       draws[currentMonth - startMonth], meanPrecipitation);
      data := data + [sample];
      currentMonth := currentMonth + 1;
    }
  }

  /** The anomaly of a synthetic temperature before rounding: (temp − mean) / 3. */
  function MockTemperatureAnomaly(seasonalSine: real, draw: real): real {
    (seasonalSine * 3.0 + (draw - 0.5) * 4.0) / TemperatureStdDev
  }

  /** One sample of `generateMockTemperatureData`; `seasonalSine` is
      sin(month / 12 · 2π) and `draw` the Math.random() of that month. */
  function MockTemperatureSample(date: string, seasonalSine: real, draw: real, meanTemp: real): (d: TemperatureData)
    ensures d.date == date
    ensures d.anomaly == Round(MockTemperatureAnomaly(seasonalSine, draw), 100.0)
  {
    var seasonalVariation := seasonalSine * 3.0;
    var randomVariation := (draw - 0.5) * 4.0;
    var temp := meanTemp + seasonalVariation + randomVariation;
    var anomaly := (temp - meanTemp) / TemperatureStdDev;
    TemperatureData(date, Round(temp, 10.0), Round(anomaly, 100.0))
  }

  /** The anomaly is the temperature's distance from the mean in units of the
      3 °C standard deviation, and with a sine in [−1, 1] and a draw in [0, 1)
      it never leaves [−1.67, 1.67] once rounded. */
  lemma MockTemperatureAnomalyBounds(date: string, seasonalSine: real, draw: real, meanTemp: real)
    requires -1.0 <= seasonalSine <= 1.0 && 0.0 <= draw < 1.0
    ensures var d := MockTemperatureSample(date, seasonalSine, draw, meanTemp);
            -1.67 <= d.anomaly <= 1.67
  {
    var a := MockTemperatureAnomaly(seasonalSine, draw);
    assert -5.0 / 3.0 <= a <= 5.0 / 3.0;
    RoundMonotone(-5.0 / 3.0, a, 100.0);
    RoundMonotone(a, 5.0 / 3.0, 100.0);
    RoundToFloor(-5.0 / 3.0, 100.0, -167);
    RoundToFloor(5.0 / 3.0, 100.0, 167);
  }

  /** `generateMockTemperatureData`: one sample per month; `sineOfMonth(m)` is
      sin(m / 12 · 2π) for a month of the year m. */
  method GenerateMockTemperatureData(startMonth: int, endMonth: int, draws: seq<real>,
                                     formatMonth: int -> string, sineOfMonth: int -> real, meanTemp: real)
    returns (data: seq<TemperatureData>)
    requires |draws| >= MonthCount(startMonth, endMonth)
    ensures |data| == MonthCount(startMonth, endMonth)
    ensures forall i :: 0 <= i < |data| ==>
      data[i] == MockTemperatureSample(formatMonth(startMonth + i), sineOfMonth(MonthOfYear(startMonth + i)), draws[i], meanTemp)
  {
    data := [];
    var currentMonth := startMonth;
    while currentMonth <= endMonth
      invariant startMonth <= currentMonth
      invariant startMonth <= endMonth ==> currentMonth <= endMonth + 1
      invariant startMonth > endMonth ==> currentMonth == startMonth
      invariant |data| == currentMonth - startMonth <= MonthCount(startMonth, endMonth)
      invariant forall i :: 0 <= i < |data| ==>
        data[i] == MockTemperatureSample(formatMonth(startMonth + i), sineOfMonth(MonthOfYear(startMonth + i)), draws[i], meanTemp)
      decreases endMonth - currentMonth
    {
      var sample := MockTemperatureSample(formatMonth(currentMonth), sineOfMonth(MonthOfYear(currentMonth)),
                                          draws[currentMonth - startMonth], meanTemp);
      data := data + [sample];
      currentMonth := currentMonth + 1;
    }
  }
}

=== FILE: common.dfy ===
/** Helpers shared by every module of the model: optional and failing values,
    JavaScript numbers that may be NaN, Math.round at a fixed precision,
    sums and means of real series, string joining and Array.prototype.find. */
module Common {

  datatype Option<T> = None | Some(value: T) {
    function GetOr(default: T): T {
      if Some? then value else default
    }
  }

  datatype Result<T, Err> = Success(value: T) | Failure(error: Err)

  /** A JavaScript number that may be NaN. Only the places where the source
      can reach 0/0 use it; everywhere else a number is a plain `real`. */
  datatype Num = Val(v: real) | NaN

  /** `x < bound` in JavaScript: every comparison with NaN is false. */
  predicate Below(x: Num, bound: real) {
    x.Val? && x.v < bound
  }

  /** `x > bound` in JavaScript: false on NaN. */
  predicate Above(x: Num, bound: real) {
    x.Val? && x.v > bound
  }

  /** JavaScript truthiness of an optional string: missing, null and "" are falsy. */
  predicate Truthy(s: Option<string>) {
    s.Some? && s.value != ""
  }

  function Abs(x: real): (r: real)
    ensures r >= 0.0 && (r == x || r == -x)
  {
    if x < 0.0 then -x else x
  }

  function Max(a: real, b: real): (r: real)
    ensures r >= a && r >= b && (r == a || r == b)
  {
    if a < b then b else a
  }

  function Min(a: real, b: real): (r: real)
    ensures r <= a && r <= b && (r == a || r == b)
  {
    if a < b then a else b
  }

  /** `Math.round(x * scale) / scale`, the source's way of keeping a fixed
      number of decimals (scale 10, 100, 1000 or 10000; 1 for Math.round alone).
      Math.round rounds to the nearest integer and halves upwards: floor(y + 0.5). */
  function Round(x: real, scale: real): real
    requires scale > 0.0
  {
    ((x * scale + 0.5).Floor as real) / scale
  }

  /** Math.round keeps NaN. */
  function RoundNum(x: Num, scale: real): Num
    requires scale > 0.0
  {
    match x
    case NaN => NaN
    case Val(v) => Val(Round(v, scale))
  }

  lemma FloorMonotone(a: real, b: real)
    requires a <= b
    ensures a.Floor <= b.Floor
  {
  }

  /** Rounding never reverses an order. */
  lemma RoundMonotone(x: real, y: real, scale: real)
    requires scale > 0.0
    requires x <= y
    ensures Round(x, scale) <= Round(y, scale)
  {
    assert x * scale <= y * scale;
    FloorMonotone(x * scale + 0.5, y * scale + 0.5);
    var fx := (x * scale + 0.5).Floor as real;
    var fy := (y * scale + 0.5).Floor as real;
    assert fx / scale <= fy / scale;
  }

  /** Rounding moves a value by at most half a unit of the last kept decimal,
      and a half rounds upwards. */
  lemma RoundError(x: real, scale: real)
    requires scale > 0.0
    ensures x - 0.5 / scale < Round(x, scale) <= x + 0.5 / scale
  {
    var f := (x * scale + 0.5).Floor as real;
    assert x * scale - 0.5 < f <= x * scale + 0.5;
    assert (x * scale - 0.5) / scale < f / scale;
    assert f / scale <= (x * scale + 0.5) / scale;
    assert (x * scale - 0.5) / scale == x - 0.5 / scale;
    assert (x * scale + 0.5) / scale == x + 0.5 / scale;
  }

  lemma RoundToFloor(x: real, scale: real, m: int)
    requires scale > 0.0
    requires (x * scale + 0.5).Floor == m
    ensures Round(x, scale) == m as real / scale
  {
  }

  /** A value already on the grid of the scale is unchanged by rounding. */
  lemma RoundOnGrid(m: int, scale: real)
    requires scale > 0.0
    ensures Round(m as real / scale, scale) == m as real / scale
  {
    var x := m as real / scale;
    assert x * scale == m as real;
    assert (x * scale + 0.5).Floor == m;
    RoundToFloor(x, scale, m);
  }

  /** Rounding a non-negative value gives a non-negative value. */
  lemma RoundNonNegative(x: real, scale: real)
    requires scale > 0.0
    requires x >= 0.0
    ensures Round(x, scale) >= 0.0
  {
    RoundMonotone(0.0, x, scale);
    RoundOnGrid(0, scale);
  }

  /** Sum of the first k elements, folded from the left as `reduce((a, b) => a + b, 0)` does. */
  function SumTo(s: seq<real>, k: nat): real
    requires k <= |s|
  {
    if k == 0 then 0.0 else SumTo(s, k - 1) + s[k - 1]
  }

  function Sum(s: seq<real>): real {
    SumTo(s, |s|)
  }

  /** `reduce(+) / length` of a non-empty series. */
  function Mean(s: seq<real>): real
    requires |s| > 0
  {
    Sum(s) / |s| as real
  }

  lemma {:induction false} SumToBounds(s: seq<real>, k: nat, lo: real, hi: real)
    requires k <= |s|
    requires forall i :: 0 <= i < |s| ==> lo <= s[i] <= hi
    ensures k as real * lo <= SumTo(s, k) <= k as real * hi
  {
    if k > 0 {
      SumToBounds(s, k - 1, lo, hi);
      assert SumTo(s, k) == SumTo(s, k - 1) + s[k - 1];
      assert k as real * lo == (k - 1) as real * lo + lo && k as real * hi == (k - 1) as real * hi + hi;
    }
  }

  /** The mean of a series lies between any lower and upper bound of its elements. */
  lemma MeanWithinBounds(s: seq<real>, lo: real, hi: real)
    requires |s| > 0
    requires forall i :: 0 <= i < |s| ==> lo <= s[i] <= hi
    ensures lo <= Mean(s) <= hi
  {
    SumToBounds(s, |s|, lo, hi);
    var n := |s| as real;
    var m := Mean(s);
    assert m * n == Sum(s);
    assert (m - lo) * n == Sum(s) - n * lo >= 0.0;
    assert (hi - m) * n == n * hi - Sum(s) >= 0.0;
  }

  lemma {:induction false} SumToConstant(s: seq<real>, k: nat, c: real)
    requires k <= |s|
    requires forall i :: 0 <= i < |s| ==> s[i] == c
    ensures SumTo(s, k) == k as real * c
  {
    if k > 0 {
      SumToConstant(s, k - 1, c);
      assert SumTo(s, k) == SumTo(s, k - 1) + s[k - 1];
      assert k as real * c == (k - 1) as real * c + c;
    }
  }

  /** The mean of a constant series is that constant. */
  lemma MeanOfConstant(s: seq<real>, c: real)
    requires |s| > 0
    requires forall i :: 0 <= i < |s| ==> s[i] == c
    ensures Mean(s) == c
  {
    SumToConstant(s, |s|, c);
  }

  lemma {:induction false} SumToShift(s: seq<real>, t: seq<real>, k: nat, c: real)
    requires |s| == |t| && k <= |s|
    requires forall i :: 0 <= i < |s| ==> t[i] == s[i] + c
    ensures SumTo(t, k) == SumTo(s, k) + k as real * c
  {
    if k > 0 {
      SumToShift(s, t, k - 1, c);
      assert k as real * c == (k - 1) as real * c + c;
    }
  }

  lemma {:induction false} SumToPrefix(s: seq<real>, t: seq<real>, k: nat)
    requires k <= |s| && k <= |t|
    requires forall i :: 0 <= i < k ==> s[i] == t[i]
    ensures SumTo(s, k) == SumTo(t, k)
  {
    if k > 0 {
      SumToPrefix(s, t, k - 1);
    }
  }

  /** `parts.join(sep)`. */
  function Join(parts: seq<string>, sep: string): string {
    if |parts| == 0 then ""
    else if |parts| == 1 then parts[0]
    else parts[0] + sep + Join(parts[1..], sep)
  }

  function Count(c: char, s: string): nat {
    if |s| == 0 then 0 else (if s[0] == c then 1 else 0) + Count(c, s[1..])
  }

  lemma {:induction false} CountAppend(c: char, a: string, b: string)
    ensures Count(c, a + b) == Count(c, a) + Count(c, b)
  {
    if |a| == 0 {
      assert a + b == b;
    } else {
      assert (a + b)[1..] == a[1..] + b;
      CountAppend(c, a[1..], b);
    }
  }

  /** Joining parts that do not contain the one-character separator puts
      exactly one separator between consecutive parts. */
  lemma {:induction false} JoinSeparatorCount(parts: seq<string>, c: char)
    requires |parts| > 0
    requires forall i :: 0 <= i < |parts| ==> Count(c, parts[i]) == 0
    ensures Count(c, Join(parts, [c])) == |parts| - 1
  {
    if |parts| > 1 {
      JoinSeparatorCount(parts[1..], c);
      CountAppend(c, parts[0], [c]);
      CountAppend(c, parts[0] + [c], Join(parts[1..], [c]));
      assert Count(c, [c]) == 1 by {
        assert [c][1..] == [];
      }
    }
  }

  /** `Array.prototype.find` / `findIndex`: the index of the first element satisfying `p`. */
  function FirstIndex<T>(s: seq<T>, p: T -> bool): (r: Option<nat>)
    ensures r.Some? ==> r.value < |s| && p(s[r.value])
    ensures r.Some? ==> forall j :: 0 <= j < r.value ==> !p(s[j])
    ensures r.None? <==> forall j :: 0 <= j < |s| ==> !p(s[j])
  {
    if |s| == 0 then None
    else if p(s[0]) then Some(0)
    else
      match FirstIndex(s[1..], p)
      case None => None
      case Some(i) => Some(i + 1)
  }

  /** `xs.map(field)`: one number per element, read off by `field`. */
  function Project<T>(s: seq<T>, field: T -> real): (r: seq<real>)
    ensures |r| == |s| && forall i :: 0 <= i < |s| ==> r[i] == field(s[i])
  {
    seq(|s|, i requires 0 <= i < |s| => field(s[i]))
  }
}

=== FILE: farm_data.dfy ===
/** The per-farm assessment of src/services/farm-data.ts: the vegetation
    summary, the fusion of the two forest-change signals, the alert rule
    table, the MRV summary and the failure-isolating batch. The synthetic
    series, draws, clock readings and number formatting are parameters. */
module FarmData {
  import opened Common
  import opened Types
  import Utils
  import Climate
  import SoilGrids
  import ForestChange
  import Terrain

  // ------------------------------------------------------ vegetation summary

  /** `values[values.length - 1] || 0`. */
  function LastOrZero(values: seq<real>): (r: real)
    ensures |values| == 0 ==> r == 0.0
    ensures |values| > 0 ==> r == values[|values| - 1]
  {
    if |values| == 0 then 0.0 else values[|values| - 1]
  }

  function NdviValues(series: seq<VegetationIndex>): (r: seq<real>)
    ensures |r| == |series| && forall i :: 0 <= i < |series| ==> r[i] == series[i].ndvi
  {
    Project(series, (v: VegetationIndex) => v.ndvi)
  }

  function EviValues(series: seq<VegetationIndex>): (r: seq<real>)
    ensures |r| == |series| && forall i :: 0 <= i < |series| ==> r[i] == series[i].evi
  {
    Project(series, (v: VegetationIndex) => v.evi)
  }

  /** Σ_{i<k} (s[i] − m)², the reduce of src/services/farm-data.ts:35. */
  function SquaredDeviations(s: seq<real>, m: real, k: nat): (r: real)
    requires k <= |s|
    ensures r >= 0.0
  {
    if k == 0 then 0.0
    else
      var d := s[k - 1] - m;
      assert d * d >= 0.0 by {
        if d < 0.0 {
          assert d * d == (-d) * (-d);
        }
      }
      SquaredDeviations(s, m, k - 1) + d * d
  }

  /** The population variance of a non-empty series. */
  function Variance(s: seq<real>): real
    requires |s| > 0
  {
    SquaredDeviations(s, Mean(s), |s|) / |s| as real
  }

  /** The NDVI stress index before rounding: the z-score of the latest NDVI
      against the series' mean and population standard deviation. An empty
      series has mean 0/0, so the index is NaN. */
  function StressIndex(ndvi: seq<real>, sqrt: real -> real): Num {
    if |ndvi| == 0 then NaN
    else Val(Utils.ZScore(LastOrZero(ndvi), Mean(ndvi), sqrt(Variance(ndvi))))
  }

  /** The `vegetation` record of `fetchFarmDetailData`. */
  function SummarizeVegetation(series: seq<VegetationIndex>, sqrt: real -> real): (v: VegetationData)
    ensures v.time_series == series
    ensures v.current_ndvi == Round(LastOrZero(NdviValues(series)), 1000.0)
    ensures v.current_evi == Round(LastOrZero(EviValues(series)), 1000.0)
    ensures v.ndvi_trend == Round(Utils.OlsSlope(NdviValues(series)), 10000.0)
    ensures v.evi_trend == Round(Utils.OlsSlope(EviValues(series)), 10000.0)
    ensures v.stress_index == RoundNum(StressIndex(NdviValues(series), sqrt), 100.0)
  {
    var ndviValues := NdviValues(series);
    var eviValues := EviValues(series);
    VegetationData(
      Round(LastOrZero(ndviValues), 1000.0),
      Round(LastOrZero(eviValues), 1000.0),
      Round(Utils.OlsSlope(ndviValues), 10000.0),
      Round(Utils.OlsSlope(eviValues), 10000.0),
      RoundNum(StressIndex(ndviValues, sqrt), 100.0),
      series)
  }

  /** Without samples the summary is all zeros with a NaN stress index. */
  lemma EmptyVegetationSummary(sqrt: real -> real)
    ensures var v := SummarizeVegetation([], sqrt);
            v.current_ndvi == 0.0 && v.current_evi == 0.0 && v.ndvi_trend == 0.0 && v.evi_trend == 0.0
            && v.stress_index.NaN?
  {
    RoundOnGrid(0, 1000.0);
    RoundOnGrid(0, 10000.0);
  }

  lemma {:induction false} SquaredDeviationsOfConstant(s: seq<real>, c: real, k: nat)
    requires k <= |s|
    requires forall i :: 0 <= i < |s| ==> s[i] == c
    ensures SquaredDeviations(s, c, k) == 0.0
  {
    if k > 0 {
      SquaredDeviationsOfConstant(s, c, k - 1);
    }
  }

  /** A constant NDVI series is not stressed: its index is 0 (given √0 = 0). */
  lemma StressOfConstantSeries(ndvi: seq<real>, c: real, sqrt: real -> real)
    requires |ndvi| > 0 && forall i :: 0 <= i < |ndvi| ==> ndvi[i] == c
    requires sqrt(0.0) == 0.0
    ensures StressIndex(ndvi, sqrt) == Val(0.0)
  {
    MeanOfConstant(ndvi, c);
    SquaredDeviationsOfConstant(ndvi, c, |ndvi|);
  }

  /** With some spread in the series, the index is negative exactly when the
      latest NDVI is below the series mean. */
  lemma StressSign(ndvi: seq<real>, sqrt: real -> real)
    requires |ndvi| > 0 && sqrt(Variance(ndvi)) > 0.0
    ensures StressIndex(ndvi, sqrt).Val?
    ensures StressIndex(ndvi, sqrt).v < 0.0 <==> ndvi[|ndvi| - 1] < Mean(ndvi)
  {
    var sd := sqrt(Variance(ndvi));
    var z := Utils.ZScore(ndvi[|ndvi| - 1], Mean(ndvi), sd);
    assert z * sd == ndvi[|ndvi| - 1] - Mean(ndvi);
    if z < 0.0 {
      assert z * sd < 0.0;
    } else {
      assert z * sd >= 0.0;
    }
  }

  // ------------------------------------------------------------ forest fusion

  /** The fused `forest_change` of src/services/farm-data.ts:65-71: a flag is
      raised when either signal raises it; areas and date are the external
      signal's alone. */
  function FuseForestChange(gfw: ForestChangeData, ndvi: ForestChange.NdviChange): (f: ForestChangeData)
    ensures f.loss_detected <==> gfw.loss_detected || ndvi.loss_detected
    ensures f.gain_detected <==> gfw.gain_detected || ndvi.gain_detected
    ensures f.loss_area_ha == gfw.loss_area_ha && f.gain_area_ha == gfw.gain_area_ha
    ensures f.last_change_date == gfw.last_change_date
  {
    ForestChangeData(
      gfw.loss_detected || ndvi.loss_detected,
      gfw.gain_detected || ndvi.gain_detected,
      gfw.loss_area_ha,
      gfw.gain_area_ha,
      gfw.last_change_date)
  }

  /** The NDVI signal cannot raise a flag on its own with four samples or
      fewer: the fused flags are then the external signal's. */
  lemma ShortSeriesKeepsExternalFlags(gfw: ForestChangeData, series: seq<ForestChange.NdviPoint>, threshold: real)
    requires |series| <= ForestChange.RecentWindow
    ensures FuseForestChange(gfw, ForestChange.DetectForestChangeFromNDVI(series, threshold)) == gfw
  {
  }

  // --------------------------------------------------------------- alerts

  /** Position of a rule in the table, which is also the order of the alerts. */
  function KindRank(kind: AlertType): nat {
    match kind
    case VegetationStress => 0
    case ForestLoss => 1
    case Drought => 2
    case TemperatureAnomaly => 3
  }

  /** The alert a rule fires, as a list of zero or one element. */
  function Fired(a: Option<Alert>): seq<Alert> {
    if a.Some? then [a.value] else []
  }

  // The id prefixes and message texts of the four rules.
  const StressIdPrefix: string := "alert_veg_"
  const StressText: string := "Vegetation stress detected. NDVI z-score: "
  const ForestIdPrefix: string := "alert_forest_"
  const ForestText: string := "Forest cover loss detected in the parcel area"
  const DroughtIdPrefix: string := "alert_drought_"
  const DroughtText: string := "Drought conditions detected. SPI: "
  const TemperatureIdPrefix: string := "alert_temp_"
  const TemperatureText: string := "Temperature anomaly detected: "
  const TemperatureUnit: string := " standard deviations"

  /** The record pushed by the vegetation-stress rule. */
  function StressAlertRecord(stressIndex: real, now: string, stamp: string, fixed2: real -> string): Alert {
    Alert(StressIdPrefix + stamp, VegetationStress, if stressIndex < -2.0 then High else Medium,
          StressText + fixed2(stressIndex), now)
  }

  /** The record pushed by the forest-loss rule. */
  function ForestLossAlertRecord(now: string, stamp: string): Alert {
    Alert(ForestIdPrefix + stamp, ForestLoss, High, ForestText, now)
  }

  /** The record pushed by the drought rule. */
  function DroughtAlertRecord(rainfallAnomaly: real, now: string, stamp: string, fixed2: real -> string): Alert {
    Alert(DroughtIdPrefix + stamp, Drought, if rainfallAnomaly < -2.0 then High else Medium,
          DroughtText + fixed2(rainfallAnomaly), now)
  }

  /** The record pushed by the temperature rule; a positive anomaly is shown with '+'. */
  function TemperatureAlertRecord(temperatureAnomaly: real, now: string, stamp: string, fixed2: real -> string): Alert {
    Alert(TemperatureIdPrefix + stamp, TemperatureAnomaly, if Abs(temperatureAnomaly) > 2.0 then High else Medium,
          TemperatureText + (if temperatureAnomaly > 0.0 then "+" else "")
          + fixed2(temperatureAnomaly) + TemperatureUnit, now)
  }

  function StressAlert(stressIndex: Num, now: string, stamp: string, fixed2: real -> string): Option<Alert> {
    if Below(stressIndex, -1.5) then Some(StressAlertRecord(stressIndex.v, now, stamp, fixed2)) else None
  }

  function ForestLossAlert(lossDetected: bool, now: string, stamp: string): Option<Alert> {
    if lossDetected then Some(ForestLossAlertRecord(now, stamp)) else None
  }

  function DroughtAlert(rainfallAnomaly: real, now: string, stamp: string, fixed2: real -> string): Option<Alert> {
    if rainfallAnomaly < -1.5 then Some(DroughtAlertRecord(rainfallAnomaly, now, stamp, fixed2)) else None
  }

  function TemperatureAlert(temperatureAnomaly: real, now: string, stamp: string, fixed2: real -> string): Option<Alert> {
    if Abs(temperatureAnomaly) > 1.5 then Some(TemperatureAlertRecord(temperatureAnomaly, now, stamp, fixed2)) else None
  }

  /** The rule table of `generateAlerts`, rule by rule in its order. `now` is
      the ISO time of the call, `stamp` the rendered Date.now() of the ids and
      `fixed2` the rendering of toFixed(2). */
  function AlertTable(stressIndex: Num, lossDetected: bool, rainfallAnomaly: real, temperatureAnomaly: real,
                      now: string, stamp: string, fixed2: real -> string): seq<Alert>
  {
    Fired(StressAlert(stressIndex, now, stamp, fixed2))
    + (Fired(ForestLossAlert(lossDetected, now, stamp))
    + (Fired(DroughtAlert(rainfallAnomaly, now, stamp, fixed2))
    + Fired(TemperatureAlert(temperatureAnomaly, now, stamp, fixed2))))
  }

  /** Some alert in the list is of this kind. */
  predicate HasKind(alerts: seq<Alert>, kind: AlertType) {
    exists i :: 0 <= i < |alerts| && alerts[i].kind == kind
  }

  /** Every alert of this kind in the list is high exactly when `high` holds. */
  predicate HighExactlyWhen(alerts: seq<Alert>, kind: AlertType, high: bool) {
    forall i :: 0 <= i < |alerts| && alerts[i].kind == kind ==> (alerts[i].severity == High <==> high)
  }

  /** The kinds strictly follow the table's order. */
  predicate InRuleOrder(alerts: seq<Alert>) {
    forall i, j :: 0 <= i < j < |alerts| ==> KindRank(alerts[i].kind) < KindRank(alerts[j].kind)
  }

  /** No alert in the list has severity 'low'. */
  predicate NeverLow(alerts: seq<Alert>) {
    forall i :: 0 <= i < |alerts| ==> alerts[i].severity != Low
  }

  /** Every alert in the list comes after rule `k` in the table. */
  predicate RanksAbove(alerts: seq<Alert>, k: int) {
    forall i :: 0 <= i < |alerts| ==> KindRank(alerts[i].kind) > k
  }

  /** A rule's alert, if it fired, is of kind `kind`, never 'low', and high
      exactly when `high`. */
  predicate RuleOf(a: Option<Alert>, kind: AlertType, high: bool) {
    a.Some? ==> a.value.kind == kind && a.value.severity != Low && (a.value.severity == High <==> high)
  }

  /** A rule's alert, if it fired, is of kind `kind` only when its severity is
      high exactly when `high`. */
  predicate RuleAgrees(a: Option<Alert>, kind: AlertType, high: bool) {
    a.Some? && a.value.kind == kind ==> (a.value.severity == High <==> high)
  }

  predicate FiredKind(a: Option<Alert>, kind: AlertType) {
    a.Some? && a.value.kind == kind
  }

  lemma FiredPrepend(a: Option<Alert>, rest: seq<Alert>, kind: AlertType, high: bool)
    requires RuleAgrees(a, kind, high)
    requires HighExactlyWhen(rest, kind, high)
    ensures HasKind(Fired(a) + rest, kind) <==> FiredKind(a, kind) || HasKind(rest, kind)
    ensures HighExactlyWhen(Fired(a) + rest, kind, high)
  {
    var r := Fired(a) + rest;
    if a.Some? {
      assert r[0] == a.value;
      forall i | 1 <= i < |r| ensures r[i] == rest[i - 1] {
      }
      if HasKind(rest, kind) {
        var i :| 0 <= i < |rest| && rest[i].kind == kind;
        assert r[i + 1].kind == kind;
      }
    } else {
      assert r == rest;
    }
  }

  /** Four rules in a row: a kind is present iff one of the rules fired it. */
  lemma FourRules(a: Option<Alert>, b: Option<Alert>, c: Option<Alert>, d: Option<Alert>, kind: AlertType, high: bool)
    requires RuleAgrees(a, kind, high) && RuleAgrees(b, kind, high)
    requires RuleAgrees(c, kind, high) && RuleAgrees(d, kind, high)
    ensures HasKind(Fired(a) + (Fired(b) + (Fired(c) + Fired(d))), kind)
        <==> FiredKind(a, kind) || FiredKind(b, kind) || FiredKind(c, kind) || FiredKind(d, kind)
    ensures HighExactlyWhen(Fired(a) + (Fired(b) + (Fired(c) + Fired(d))), kind, high)
  {
    FiredPrepend(d, [], kind, high);
    assert Fired(d) + [] == Fired(d);
    FiredPrepend(c, Fired(d), kind, high);
    FiredPrepend(b, Fired(c) + Fired(d), kind, high);
    FiredPrepend(a, Fired(b) + (Fired(c) + Fired(d)), kind, high);
  }

  /** Each rule fires under its condition, with its own kind and severity. */
  lemma RulesFire(stressIndex: Num, lossDetected: bool, rainfallAnomaly: real, temperatureAnomaly: real,
                  now: string, stamp: string, fixed2: real -> string)
    ensures var a := StressAlert(stressIndex, now, stamp, fixed2);
            (a.Some? <==> Below(stressIndex, -1.5)) && RuleOf(a, VegetationStress, Below(stressIndex, -2.0))
    ensures var b := ForestLossAlert(lossDetected, now, stamp);
            (b.Some? <==> lossDetected) && RuleOf(b, ForestLoss, true)
    ensures var c := DroughtAlert(rainfallAnomaly, now, stamp, fixed2);
            (c.Some? <==> rainfallAnomaly < -1.5) && RuleOf(c, Drought, rainfallAnomaly < -2.0)
    ensures var d := TemperatureAlert(temperatureAnomaly, now, stamp, fixed2);
            (d.Some? <==> Abs(temperatureAnomaly) > 1.5) && RuleOf(d, TemperatureAnomaly, Abs(temperatureAnomaly) > 2.0)
  {
  }

  /** Four rules of the table's four kinds, in the table's order: each kind is
      present iff its rule fired and is high exactly when its rule says so. */
  lemma TableOfRules(a: Option<Alert>, b: Option<Alert>, c: Option<Alert>, d: Option<Alert>,
                     ha: bool, hb: bool, hc: bool, hd: bool)
    requires RuleOf(a, VegetationStress, ha) && RuleOf(b, ForestLoss, hb)
    requires RuleOf(c, Drought, hc) && RuleOf(d, TemperatureAnomaly, hd)
    ensures var r := Fired(a) + (Fired(b) + (Fired(c) + Fired(d)));
            && (HasKind(r, VegetationStress) <==> a.Some?) && HighExactlyWhen(r, VegetationStress, ha)
            && (HasKind(r, ForestLoss) <==> b.Some?) && HighExactlyWhen(r, ForestLoss, hb)
            && (HasKind(r, Drought) <==> c.Some?) && HighExactlyWhen(r, Drought, hc)
            && (HasKind(r, TemperatureAnomaly) <==> d.Some?) && HighExactlyWhen(r, TemperatureAnomaly, hd)
  {
    FourRules(a, b, c, d, VegetationStress, ha);
    FourRules(a, b, c, d, ForestLoss, hb);
    FourRules(a, b, c, d, Drought, hc);
    FourRules(a, b, c, d, TemperatureAnomaly, hd);
  }

  /** Each rule of the table: the alert of a kind is present exactly when its
      condition holds, and is high exactly when the stricter condition holds.
      Comparisons with a NaN stress index are false, and forest gain and the
      SOC projection never raise an alert. */
  lemma AlertRules(stressIndex: Num, lossDetected: bool, rainfallAnomaly: real, temperatureAnomaly: real,
                   now: string, stamp: string, fixed2: real -> string)
    ensures var r := AlertTable(stressIndex, lossDetected, rainfallAnomaly, temperatureAnomaly, now, stamp, fixed2);
            && (HasKind(r, VegetationStress) <==> Below(stressIndex, -1.5))
            && HighExactlyWhen(r, VegetationStress, Below(stressIndex, -2.0))
            && (HasKind(r, ForestLoss) <==> lossDetected)
            && HighExactlyWhen(r, ForestLoss, true)
            && (HasKind(r, Drought) <==> rainfallAnomaly < -1.5)
            && HighExactlyWhen(r, Drought, rainfallAnomaly < -2.0)
            && (HasKind(r, TemperatureAnomaly) <==> Abs(temperatureAnomaly) > 1.5)
            && HighExactlyWhen(r, TemperatureAnomaly, Abs(temperatureAnomaly) > 2.0)
  {
    RulesFire(stressIndex, lossDetected, rainfallAnomaly, temperatureAnomaly, now, stamp, fixed2);
    TableOfRules(StressAlert(stressIndex, now, stamp, fixed2), ForestLossAlert(lossDetected, now, stamp),
                 DroughtAlert(rainfallAnomaly, now, stamp, fixed2), TemperatureAlert(temperatureAnomaly, now, stamp, fixed2),
                 Below(stressIndex, -2.0), true, rainfallAnomaly < -2.0, Abs(temperatureAnomaly) > 2.0);
  }

  /** At most one alert per rule, in the table's order, so at most four; and
      none is ever of severity 'low'. */
  lemma AlertsOrderedAndBounded(stressIndex: Num, lossDetected: bool, rainfallAnomaly: real, temperatureAnomaly: real,
                                now: string, stamp: string, fixed2: real -> string)
    ensures var r := AlertTable(stressIndex, lossDetected, rainfallAnomaly, temperatureAnomaly, now, stamp, fixed2);
            && InRuleOrder(r)
            && |r| <= 4
            && NeverLow(r)
  {
    RulesFire(stressIndex, lossDetected, rainfallAnomaly, temperatureAnomaly, now, stamp, fixed2);
    RankedTable(StressAlert(stressIndex, now, stamp, fixed2), ForestLossAlert(lossDetected, now, stamp),
                DroughtAlert(rainfallAnomaly, now, stamp, fixed2), TemperatureAlert(temperatureAnomaly, now, stamp, fixed2),
                Below(stressIndex, -2.0), true, rainfallAnomaly < -2.0, Abs(temperatureAnomaly) > 2.0);
  }

  /** Four rules of the table's four kinds, in the table's order, give an
      ordered list of at most four alerts, none of them 'low'. */
  lemma RankedTable(a: Option<Alert>, b: Option<Alert>, c: Option<Alert>, d: Option<Alert>,
                    ha: bool, hb: bool, hc: bool, hd: bool)
    requires RuleOf(a, VegetationStress, ha) && RuleOf(b, ForestLoss, hb)
    requires RuleOf(c, Drought, hc) && RuleOf(d, TemperatureAnomaly, hd)
    ensures var r := Fired(a) + (Fired(b) + (Fired(c) + Fired(d)));
            InRuleOrder(r) && |r| <= 4 && NeverLow(r)
  {
    var fd := Fired(d);
    assert InRuleOrder(fd) && NeverLow(fd) && RanksAbove(fd, 2);
    var fc := Fired(c) + fd;
    RankedPrepend(c, fd, 2);
    RankedPrepend(b, fc, 1);
    RankedPrepend(a, Fired(b) + fc, 0);
  }

  /** Putting the alert of rule `k`, if it fired, in front of alerts of later
      rules keeps the rule order. */
  lemma RankedPrepend(a: Option<Alert>, rest: seq<Alert>, k: int)
    requires a.Some? ==> KindRank(a.value.kind) == k && a.value.severity != Low
    requires InRuleOrder(rest) && NeverLow(rest) && RanksAbove(rest, k)
    ensures InRuleOrder(Fired(a) + rest) && NeverLow(Fired(a) + rest) && RanksAbove(Fired(a) + rest, k - 1)
    ensures |Fired(a) + rest| <= |rest| + 1
  {
    var r := Fired(a) + rest;
    if a.Some? {
      forall i | 1 <= i < |r| ensures r[i] == rest[i - 1] {
      }
    } else {
      assert r == rest;
    }
  }

  /** `generateAlerts`: the conditional pushes of src/services/farm-data.ts:116-159.
      The forest gain flag and the SOC projection are received and unused. */
  method GenerateAlerts(vegetation: VegetationData, climate: ClimateData, forestChange: ForestChangeData,
                        soc: SOCData, now: string, stamp: string, fixed2: real -> string)
    returns (alerts: seq<Alert>)
    ensures alerts == AlertTable(vegetation.stress_index, forestChange.loss_detected, climate.rainfall_anomaly,
                                 climate.temperature_anomaly, now, stamp, fixed2)
  {
    ghost var sa := StressAlert(vegetation.stress_index, now, stamp, fixed2);
    ghost var la := ForestLossAlert(forestChange.loss_detected, now, stamp);
    ghost var da := DroughtAlert(climate.rainfall_anomaly, now, stamp, fixed2);
    ghost var ta := TemperatureAlert(climate.temperature_anomaly, now, stamp, fixed2);
    alerts := [];
    ghost var done := alerts;
    if Below(vegetation.stress_index, -1.5) {
      alerts := alerts + [StressAlertRecord(vegetation.stress_index.v, now, stamp, fixed2)];
    }
    PushedIfFired(done, alerts, sa);
    done := alerts;
    if forestChange.loss_detected {
      alerts := alerts + [ForestLossAlertRecord(now, stamp)];
    }
    PushedIfFired(done, alerts, la);
    done := alerts;
    if climate.rainfall_anomaly < -1.5 {
      alerts := alerts + [DroughtAlertRecord(climate.rainfall_anomaly, now, stamp, fixed2)];
    }
    PushedIfFired(done, alerts, da);
    done := alerts;
    if Abs(climate.temperature_anomaly) > 1.5 {
      alerts := alerts + [TemperatureAlertRecord(climate.temperature_anomaly, now, stamp, fixed2)];
    }
    PushedIfFired(done, alerts, ta);
    ConcatRight(Fired(sa), Fired(la), Fired(da), Fired(ta));
  }

  /** A conditional push extends the list by the rule's alert, if it fired. */
  lemma PushedIfFired(before: seq<Alert>, after: seq<Alert>, a: Option<Alert>)
    requires a.Some? ==> after == before + [a.value]
    requires a.None? ==> after == before
    ensures after == before + Fired(a)
  {
    if a.None? {
      assert before + [] == before;
    }
  }

  lemma ConcatRight(a: seq<Alert>, b: seq<Alert>, c: seq<Alert>, d: seq<Alert>)
    ensures a + b + c + d == a + (b + (c + d))
  {
  }

  /** Synthetic temperatures (anomalies within ±1.67, as their generator
      guarantees) can raise at most a medium temperature alert. */
  lemma MockTemperaturesNeverHighAlert(stressIndex: Num, lossDetected: bool, rainfall: seq<RainfallData>,
                                       temperature: seq<TemperatureData>, sqrt: real -> real,
                                       now: string, stamp: string, fixed2: real -> string)
    requires |temperature| > 0
    requires forall i :: 0 <= i < |temperature| ==> -1.67 <= temperature[i].anomaly <= 1.67
    ensures var climate := Climate.CalculateClimateAnomalies(rainfall, temperature, sqrt);
            var r := AlertTable(stressIndex, lossDetected, climate.rainfall_anomaly, climate.temperature_anomaly,
                                now, stamp, fixed2);
            forall i :: 0 <= i < |r| && r[i].kind == TemperatureAnomaly ==> r[i].severity == Medium
  {
    var climate := Climate.CalculateClimateAnomalies(rainfall, temperature, sqrt);
    var t := Climate.RecentTemperatureAnomaly(temperature);
    assert climate.temperature_anomaly == Round(t, 100.0);
    Climate.TemperatureAnomalyWithinWindow(temperature, -1.67, 1.67);
    RoundMonotone(-1.67, t, 100.0);
    RoundMonotone(t, 1.67, 100.0);
    RoundOnGrid(-167, 100.0);
    RoundOnGrid(167, 100.0);
    ModerateTemperatureAlert(stressIndex, lossDetected, climate.rainfall_anomaly, climate.temperature_anomaly,
                             now, stamp, fixed2);
  }

  /** A temperature anomaly of at most 2 in magnitude raises at most a medium alert. */
  lemma ModerateTemperatureAlert(stressIndex: Num, lossDetected: bool, rainfallAnomaly: real,
                                 temperatureAnomaly: real, now: string, stamp: string, fixed2: real -> string)
    requires Abs(temperatureAnomaly) <= 2.0
    ensures var r := AlertTable(stressIndex, lossDetected, rainfallAnomaly, temperatureAnomaly, now, stamp, fixed2);
            forall i :: 0 <= i < |r| && r[i].kind == TemperatureAnomaly ==> r[i].severity == Medium
  {
    AlertRules(stressIndex, lossDetected, rainfallAnomaly, temperatureAnomaly, now, stamp, fixed2);
    AlertsOrderedAndBounded(stressIndex, lossDetected, rainfallAnomaly, temperatureAnomaly, now, stamp, fixed2);
  }

  // ------------------------------------------------------ the whole record

  /** The farm's MRV summary, src/services/farm-data.ts:77-96. */
  function ProjectMRV(farm: Farm, vegetation: VegetationData, climate: ClimateData, soc: SOCData,
                      forestChange: ForestChangeData, alerts: seq<Alert>, updatedAt: string): FarmMRVData
  {
    FarmMRVData(
      farm.id,
      farm.area_ha,
      NdviSummary(vegetation.current_ndvi, vegetation.ndvi_trend),
      EviSummary(vegetation.current_evi),
      climate.rainfall_anomaly,
      climate.temperature_anomaly,
      soc.baseline_0_30cm,
      ForestFlags(forestChange.loss_detected, forestChange.gain_detected),
      alerts,
      updatedAt)
  }

  /** The summary of a record agrees field by field with the record it summarises. */
  predicate MrvConsistent(d: FarmDetailData) {
    var s := d.mrv_summary;
    && s.farm_id == d.farm.id && s.area_ha == d.farm.area_ha
    && s.ndvi.current == d.vegetation.current_ndvi && s.ndvi.trend == d.vegetation.ndvi_trend
    && s.evi.current == d.vegetation.current_evi
    && s.rainfall_anomaly == d.climate.rainfall_anomaly
    && s.temperature_anomaly == d.climate.temperature_anomaly
    && s.soc_baseline == d.soc.baseline_0_30cm
    && s.forest_change.loss == d.forest_change.loss_detected
    && s.forest_change.gain == d.forest_change.gain_detected
    && s.alerts == d.alerts
  }

  /** The `{ date, ndvi }` pairs handed to the NDVI change detector. */
  function NdviPoints(series: seq<VegetationIndex>): (r: seq<ForestChange.NdviPoint>)
    ensures |r| == |series|
    ensures forall i :: 0 <= i < |series| ==> r[i] == ForestChange.NdviPoint(series[i].date, series[i].ndvi)
  {
    seq(|series|, i requires 0 <= i < |series| => ForestChange.NdviPoint(series[i].date, series[i].ndvi))
  }

  /** The Math.random() draws consumed by the synthetic SOC, forest-change and
      terrain answers, and the formatted random forest-change date. */
  datatype MockDraws = MockDraws(
    soc: real, socDelta: real,
    loss: real, gain: real, lossArea: real, gainArea: real, changeDate: string,
    elevation: real, slope: real, aspect: real)

  /** `fetchFarmDetailData`. `vegetationSeries`, `rainfall` and `temperature`
      are what the synthetic generators returned for the past year;
      `geometry` is the geometry library's answer for the farm polygon, None
      when it throws, which makes the whole call fail. */
  function FetchFarmDetailData(farm: Farm, geometry: Option<Geometry>,
                               vegetationSeries: seq<VegetationIndex>, rainfall: seq<RainfallData>,
                               temperature: seq<TemperatureData>, draws: MockDraws,
                               sqrt: real -> real, fixed2: real -> string,
                               now: string, stamp: string): (r: Result<FarmDetailData, string>)
    requires 0.0 <= draws.aspect < 1.0
    ensures r.Success? <==> geometry.Some?
    ensures r.Success? ==> MrvConsistent(r.value) && r.value.farm == farm
    ensures r.Success? ==> r.value.vegetation.time_series == vegetationSeries
    ensures r.Success? ==>
      r.value.alerts == AlertTable(r.value.vegetation.stress_index, r.value.forest_change.loss_detected,
                                   r.value.climate.rainfall_anomaly, r.value.climate.temperature_anomaly,
                                   now, stamp, fixed2)
    ensures r.Success? ==>
      r.value.soc == SoilGrids.EstimateSOCChange(r.value.soc.baseline_0_30cm,
                                                 Utils.OlsSlope(NdviValues(vegetationSeries)),
                                                 r.value.climate.rainfall_anomaly, SoilGrids.DefaultYearsProjected)
    ensures r.Success? ==>
      r.value.soc.baseline_0_30cm
      == SoilGrids.GenerateMockSOCData(geometry.value.centroid, draws.soc, draws.socDelta).baseline_0_30cm
    ensures r.Success? ==> r.value.mrv_summary.last_updated == now
    ensures r.Success? ==> r.value.vegetation == SummarizeVegetation(vegetationSeries, sqrt)
    ensures r.Success? ==> r.value.climate == Climate.CalculateClimateAnomalies(rainfall, temperature, sqrt)
    ensures r.Success? ==>
      r.value.forest_change
      == FuseForestChange(ForestChange.GenerateMockForestChangeData(geometry.value.bbox, draws.loss, draws.gain,
                                                                    draws.lossArea, draws.gainArea, draws.changeDate),
                          ForestChange.DetectForestChangeFromNDVI(NdviPoints(vegetationSeries),
                                                                  ForestChange.DefaultThreshold))
    ensures r.Success? ==>
      r.value.terrain == Terrain.GenerateMockTerrainData(geometry.value.centroid, draws.elevation, draws.slope, draws.aspect)
  {
    match geometry
    case None => Failure("the farm polygon is not a valid geometry")
    case Some(g) =>
      var vegetation := SummarizeVegetation(vegetationSeries, sqrt);
      var climate := Climate.CalculateClimateAnomalies(rainfall, temperature, sqrt);
      var socBaseline := SoilGrids.GenerateMockSOCData(g.centroid, draws.soc, draws.socDelta);
      var soc := SoilGrids.EstimateSOCChange(socBaseline.baseline_0_30cm, Utils.OlsSlope(NdviValues(vegetationSeries)),
                                             climate.rainfall_anomaly, SoilGrids.DefaultYearsProjected);
      var gfwForestChange := ForestChange.GenerateMockForestChangeData(
        g.bbox, draws.loss, draws.gain, draws.lossArea, draws.gainArea, draws.changeDate);
      var ndviForestChange := ForestChange.DetectForestChangeFromNDVI(NdviPoints(vegetationSeries),
                                                                      ForestChange.DefaultThreshold);
      var forestChange := FuseForestChange(gfwForestChange, ndviForestChange);
      var terrain := Terrain.GenerateMockTerrainData(g.centroid, draws.elevation, draws.slope, draws.aspect);
      var alerts := AlertTable(vegetation.stress_index, forestChange.loss_detected, climate.rainfall_anomaly,
                               climate.temperature_anomaly, now, stamp, fixed2);
      var summary := ProjectMRV(farm, vegetation, climate, soc, forestChange, alerts, now);
      Success(FarmDetailData(farm, vegetation, climate, soc, forestChange, terrain, alerts, summary))
  }

  /** A fetched record whose temperature series is what the synthetic
      generator gives with its default mean of 22 °C (each sample from a
      seasonal sine in [−1, 1] and a draw in [0, 1)) never carries a High
      temperature alert. */
  lemma FetchedSyntheticTemperaturesNeverHighAlert(farm: Farm, geometry: Option<Geometry>,
                                                  vegetationSeries: seq<VegetationIndex>, rainfall: seq<RainfallData>,
                                                  temperature: seq<TemperatureData>, draws: MockDraws,
                                                  sqrt: real -> real, fixed2: real -> string,
                                                  now: string, stamp: string,
                                                  sines: seq<real>, temperatureDraws: seq<real>)
    requires 0.0 <= draws.aspect < 1.0
    requires |sines| == |temperature| && |temperatureDraws| == |temperature|
    requires forall i :: 0 <= i < |temperature| ==>
      && -1.0 <= sines[i] <= 1.0 && 0.0 <= temperatureDraws[i] < 1.0
      && temperature[i] == Climate.MockTemperatureSample(temperature[i].date, sines[i], temperatureDraws[i],
                                                         Climate.DefaultMeanTemp)
    ensures var r := FetchFarmDetailData(farm, geometry, vegetationSeries, rainfall, temperature, draws,
                                         sqrt, fixed2, now, stamp);
            r.Success? ==>
              forall i :: 0 <= i < |r.value.alerts| && r.value.alerts[i].kind == TemperatureAnomaly ==>
                r.value.alerts[i].severity == Medium
  {
    var r := FetchFarmDetailData(farm, geometry, vegetationSeries, rainfall, temperature, draws,
                                 sqrt, fixed2, now, stamp);
    if r.Success? {
      var climate := Climate.CalculateClimateAnomalies(rainfall, temperature, sqrt);
      if |temperature| == 0 {
        ModerateTemperatureAlert(r.value.vegetation.stress_index, r.value.forest_change.loss_detected,
                                 climate.rainfall_anomaly, climate.temperature_anomaly, now, stamp, fixed2);
      } else {
        forall i | 0 <= i < |temperature| ensures -1.67 <= temperature[i].anomaly <= 1.67 {
          Climate.MockTemperatureAnomalyBounds(temperature[i].date, sines[i], temperatureDraws[i],
                                               Climate.DefaultMeanTemp);
        }
        MockTemperaturesNeverHighAlert(r.value.vegetation.stress_index, r.value.forest_change.loss_detected,
                                       rainfall, temperature, sqrt, now, stamp, fixed2);
      }
    }
  }

  /** With SOC draws in [0, 1), a fetched record's SOC baseline is at least
      20 t/ha, and so is the baseline its summary reports. */
  lemma FetchedSOCBaselineBounded(farm: Farm, geometry: Option<Geometry>,
                                  vegetationSeries: seq<VegetationIndex>, rainfall: seq<RainfallData>,
                                  temperature: seq<TemperatureData>, draws: MockDraws,
                                  sqrt: real -> real, fixed2: real -> string, now: string, stamp: string)
    requires 0.0 <= draws.aspect < 1.0
    requires 0.0 <= draws.soc < 1.0 && 0.0 <= draws.socDelta < 1.0
    ensures var r := FetchFarmDetailData(farm, geometry, vegetationSeries, rainfall, temperature, draws,
                                         sqrt, fixed2, now, stamp);
            r.Success? ==> r.value.soc.baseline_0_30cm >= 20.0 && r.value.mrv_summary.soc_baseline >= 20.0
  {
    if geometry.Some? {
      SoilGrids.MockSOCBounds(geometry.value.centroid, draws.soc, draws.socDelta);
    }
  }

  /** `generateMRVSummary` hands back the summary stored in the record, for
      any record and whatever the farm; for a record that agrees with its
      summary, the summary names the record's farm, alerts and forest flags. */
  function GenerateMRVSummary(farm: Farm, detail: FarmDetailData): (s: FarmMRVData)
    ensures s == detail.mrv_summary
    ensures MrvConsistent(detail) ==> s.farm_id == detail.farm.id && s.alerts == detail.alerts
    ensures MrvConsistent(detail) ==>
      s.forest_change == ForestFlags(detail.forest_change.loss_detected, detail.forest_change.gain_detected)
  {
    detail.mrv_summary
  }

  // ----------------------------------------------------------------- batch

  /** Among the first `n` fetches, the i-th succeeded and no later one for
      the same id did. */
  predicate LastSuccessAmong(farms: seq<Farm>, outcomes: seq<Result<FarmDetailData, string>>, i: int, n: int)
    requires |outcomes| == |farms| && 0 <= n <= |farms|
  {
    && 0 <= i < n && outcomes[i].Success?
    && forall j :: i < j < n && farms[j].id == farms[i].id ==> outcomes[j].Failure?
  }

  /** Among the first `n` fetches, one for this id succeeded. */
  predicate SucceededAmong(farms: seq<Farm>, outcomes: seq<Result<FarmDetailData, string>>, id: string, n: int)
    requires |outcomes| == |farms| && 0 <= n <= |farms|
  {
    exists i :: 0 <= i < n && farms[i].id == id && outcomes[i].Success?
  }

  /** `batchFetchFarmData`: `outcomes[i]` is what fetching `farms[i]` gave,
      a record or the error it threw. A failure is skipped without stopping
      the loop, and a later success for the same id replaces an earlier one. */
  method BatchFetchFarmData(farms: seq<Farm>, outcomes: seq<Result<FarmDetailData, string>>)
    returns (results: map<string, FarmDetailData>)
    requires |outcomes| == |farms|
    ensures forall id :: id in results <==> SucceededAmong(farms, outcomes, id, |farms|)
    ensures forall i :: LastSuccessAmong(farms, outcomes, i, |farms|) ==>
      farms[i].id in results && results[farms[i].id] == outcomes[i].value
  {
    results := map[];
    for n := 0 to |farms|
      invariant forall id :: id in results <==> SucceededAmong(farms, outcomes, id, n)
      invariant forall i :: LastSuccessAmong(farms, outcomes, i, n) ==>
        farms[i].id in results && results[farms[i].id] == outcomes[i].value
    {
      var id := farms[n].id;
      if outcomes[n].Success? {
        results := results[id := outcomes[n].value];
        assert SucceededAmong(farms, outcomes, id, n + 1);
        forall i | LastSuccessAmong(farms, outcomes, i, n + 1)
          ensures farms[i].id in results && results[farms[i].id] == outcomes[i].value
        {
          if i < n {
            assert farms[i].id != id;
            assert LastSuccessAmong(farms, outcomes, i, n);
          }
        }
      } else {
        forall i | LastSuccessAmong(farms, outcomes, i, n + 1)
          ensures farms[i].id in results && results[farms[i].id] == outcomes[i].value
        {
          assert LastSuccessAmong(farms, outcomes, i, n);
        }
      }
    }
  }
}

=== FILE: farm_store.dfy ===
/** The client-side farm store of src/store/farm-store.ts. Each action
    replaces some fields of the state and leaves the others as they were; the
    `farmData` Map is an insertion-ordered list of (id, record) entries with
    distinct ids, as a JavaScript Map iterates in insertion order. */
module Store {
  import opened Common
  import opened Types

  // ----------------------------------------------------------- farm lists

  /** `farms.filter(farm => farm.id !== id)`. */
  function RemoveId(farms: seq<Farm>, id: string): (r: seq<Farm>)
    ensures |r| <= |farms|
    ensures forall i :: 0 <= i < |r| ==> r[i].id != id
    ensures forall f :: f in r <==> f in farms && f.id != id
  {
    if |farms| == 0 then []
    else if farms[0].id != id then [farms[0]] + RemoveId(farms[1..], id)
    else RemoveId(farms[1..], id)
  }

  /** Removal works piecewise: the farms that stay keep their relative order. */
  lemma {:induction false} RemoveIdAppend(a: seq<Farm>, b: seq<Farm>, id: string)
    ensures RemoveId(a + b, id) == RemoveId(a, id) + RemoveId(b, id)
  {
    if |a| == 0 {
      assert a + b == b;
    } else {
      assert (a + b)[1..] == a[1..] + b;
      RemoveIdAppend(a[1..], b, id);
    }
  }

  /** A list without the id is left as it is. */
  lemma {:induction false} RemoveIdAbsent(farms: seq<Farm>, id: string)
    requires forall i :: 0 <= i < |farms| ==> farms[i].id != id
    ensures RemoveId(farms, id) == farms
  {
    if |farms| > 0 {
      RemoveIdAbsent(farms[1..], id);
    }
  }

  /** `Partial<Farm>`: the fields an update carries; None where it carries none. */
  datatype FarmPatch = FarmPatch(
    id: Option<string>,
    name: Option<string>,
    farmer_info: Option<FarmerInfo>,
    polygon: Option<Polygon>,
    centroid: Option<Coordinates>,
    area_ha: Option<real>,
    altitude_m: Option<real>,
    country: Option<string>,
    region: Option<string>,
    created_at: Option<string>,
    updated_at: Option<string>)

  /** A spread field: the update's value when it carries one, the old value otherwise. */
  predicate Spread<T(==)>(update: Option<T>, before: T, after: T) {
    if update.Some? then after == update.value else after == before
  }

  /** `{ ...farm, ...updates, updated_at: now }`: each field takes the
      update's value when it carries one and keeps its own otherwise, except
      `updated_at`, which is `now` even when the update carries one. */
  function ApplyPatch(farm: Farm, patch: FarmPatch, now: string): (r: Farm)
    ensures r.updated_at == now
    ensures Spread(patch.id, farm.id, r.id) && Spread(patch.name, farm.name, r.name)
    ensures Spread(patch.farmer_info, farm.farmer_info, r.farmer_info)
    ensures Spread(patch.polygon, farm.polygon, r.polygon) && Spread(patch.centroid, farm.centroid, r.centroid)
    ensures Spread(patch.area_ha, farm.area_ha, r.area_ha) && Spread(patch.altitude_m, farm.altitude_m, r.altitude_m)
    ensures Spread(patch.country, farm.country, r.country) && Spread(patch.region, farm.region, r.region)
    ensures Spread(patch.created_at, farm.created_at, r.created_at)
  {
    Farm(
      patch.id.GetOr(farm.id),
      patch.name.GetOr(farm.name),
      patch.farmer_info.GetOr(farm.farmer_info),
      patch.polygon.GetOr(farm.polygon),
      patch.centroid.GetOr(farm.centroid),
      patch.area_ha.GetOr(farm.area_ha),
      patch.altitude_m.GetOr(farm.altitude_m),
      patch.country.GetOr(farm.country),
      patch.region.GetOr(farm.region),
      patch.created_at.GetOr(farm.created_at),
      now)
  }

  /** An empty patch only refreshes `updated_at`. */
  lemma EmptyPatchTouchesOnlyTimestamp(farm: Farm, now: string)
    ensures ApplyPatch(farm, FarmPatch(None, None, None, None, None, None, None, None, None, None, None), now)
         == farm.(updated_at := now)
  {
  }

  /** The updated list of `updateFarm`: each farm whose id matches is patched
      and stamped, the others are kept. */
  function UpdateMatching(farms: seq<Farm>, id: string, patch: FarmPatch, now: string): (r: seq<Farm>)
    ensures |r| == |farms|
    ensures forall i :: 0 <= i < |farms| ==>
      r[i] == if farms[i].id == id then ApplyPatch(farms[i], patch, now) else farms[i]
  {
    seq(|farms|, i requires 0 <= i < |farms| =>
      if farms[i].id == id then ApplyPatch(farms[i], patch, now) else farms[i])
  }

  // ------------------------------------------------------------ farmData

  /** The ids of the entries, in insertion order. */
  function Keys<V>(entries: seq<(string, V)>): (r: seq<string>)
    ensures |r| == |entries| && forall i :: 0 <= i < |entries| ==> r[i] == entries[i].0
  {
    if |entries| == 0 then [] else [entries[0].0] + Keys(entries[1..])
  }

  predicate DistinctKeys<V>(entries: seq<(string, V)>) {
    forall i, j :: 0 <= i < j < |entries| ==> entries[i].0 != entries[j].0
  }

  /** `Map.prototype.get`. */
  function Lookup<V>(entries: seq<(string, V)>, id: string): (r: Option<V>)
    ensures r.None? <==> id !in Keys(entries)
    ensures r.Some? ==> exists i :: 0 <= i < |entries| && entries[i] == (id, r.value)
  {
    if |entries| == 0 then None
    else if entries[0].0 == id then Some(entries[0].1)
    else Lookup(entries[1..], id)
  }

  /** `Map.prototype.set`: an existing key keeps its place and gets the new
      record; a new key is appended. */
  function SetEntry<V>(entries: seq<(string, V)>, id: string, data: V)
    : (r: seq<(string, V)>)
    ensures id in Keys(entries) ==> |r| == |entries|
    ensures id !in Keys(entries) ==> r == entries + [(id, data)]
  {
    if |entries| == 0 then [(id, data)]
    else if entries[0].0 == id then [(id, data)] + entries[1..]
    else [entries[0]] + SetEntry(entries[1..], id, data)
  }

  /** Setting a key never reorders the keys: an existing key list stays as it
      was and a new key goes at the end. */
  lemma {:induction false} SetEntryKeys<V>(entries: seq<(string, V)>, id: string, data: V)
    ensures Keys(SetEntry(entries, id, data)) == if id in Keys(entries) then Keys(entries) else Keys(entries) + [id]
  {
    if |entries| > 0 {
      var rest := entries[1..];
      assert Keys(entries) == [entries[0].0] + Keys(rest);
      if entries[0].0 == id {
        assert Keys(SetEntry(entries, id, data)) == [id] + Keys(rest);
      } else {
        SetEntryKeys(rest, id, data);
        assert Keys(SetEntry(entries, id, data)) == [entries[0].0] + Keys(SetEntry(rest, id, data));
      }
    }
  }

  /** After setting a key, looking it up gives the new record. */
  lemma {:induction false} SetEntryLookupSame<V>(entries: seq<(string, V)>, id: string, data: V)
    ensures Lookup(SetEntry(entries, id, data), id) == Some(data)
  {
    if |entries| > 0 && entries[0].0 != id {
      SetEntryLookupSame(entries[1..], id, data);
    }
  }

  /** Setting a key leaves every other key's record alone. */
  lemma {:induction false} SetEntryLookupOther<V>(entries: seq<(string, V)>, id: string,
                                               data: V, k: string)
    requires k != id
    ensures Lookup(SetEntry(entries, id, data), k) == Lookup(entries, k)
  {
    if |entries| > 0 {
      var r := SetEntry(entries, id, data);
      if entries[0].0 == id {
        assert r[1..] == entries[1..];
      } else {
        assert r[1..] == SetEntry(entries[1..], id, data);
        SetEntryLookupOther(entries[1..], id, data, k);
      }
    }
  }

  /** Setting a key keeps the keys distinct. */
  lemma SetEntryDistinct<V>(entries: seq<(string, V)>, id: string, data: V)
    requires DistinctKeys(entries)
    ensures DistinctKeys(SetEntry(entries, id, data))
  {
    var r := SetEntry(entries, id, data);
    SetEntryKeys(entries, id, data);
    forall i, j | 0 <= i < j < |r| ensures r[i].0 != r[j].0 {
      assert r[i].0 == Keys(r)[i] && r[j].0 == Keys(r)[j];
      if id !in Keys(entries) && j == |entries| {
        assert Keys(r)[i] == Keys(entries)[i];
      } else {
        assert Keys(r)[i] == entries[i].0 && Keys(r)[j] == entries[j].0;
      }
    }
  }

  // ----------------------------------------------------------------- store

  class FarmStore {
    var farms: seq<Farm>
    var selectedFarmId: Option<string>
    var farmData: seq<(string, FarmDetailData)>
    var isLoading: bool
    var error: Option<string>

    ghost predicate Valid()
      reads this
    {
      DistinctKeys(farmData)
    }

    /** The initial state: no farms, nothing selected, no records, not loading, no error. */
    constructor()
      ensures Valid()
      ensures farms == [] && selectedFarmId == None && farmData == [] && !isLoading && error == None
    {
      farms := [];
      selectedFarmId := None;
      farmData := [];
      isLoading := false;
      error := None;
    }

    /** `setFarms`. */
    method SetFarms(newFarms: seq<Farm>)
      modifies this
      ensures farms == newFarms
      ensures selectedFarmId == old(selectedFarmId) && farmData == old(farmData)
      ensures isLoading == old(isLoading) && error == old(error)
    {
      farms := newFarms;
    }

    /** `addFarm`: the farm goes at the end, the existing farms are untouched. */
    method AddFarm(farm: Farm)
      modifies this
      ensures farms == old(farms) + [farm]
      ensures selectedFarmId == old(selectedFarmId) && farmData == old(farmData)
      ensures isLoading == old(isLoading) && error == old(error)
    {
      farms := farms + [farm];
    }

    /** `updateFarm`; `now` is the ISO time of the call. */
    method UpdateFarm(id: string, updates: FarmPatch, now: string)
      modifies this
      ensures farms == UpdateMatching(old(farms), id, updates, now)
      ensures selectedFarmId == old(selectedFarmId) && farmData == old(farmData)
      ensures isLoading == old(isLoading) && error == old(error)
    {
      farms := UpdateMatching(farms, id, updates, now);
    }

    /** `deleteFarm`: every farm with the id goes, and the selection is
      cleared exactly when it was that id. */
    method DeleteFarm(id: string)
      modifies this
      ensures farms == RemoveId(old(farms), id)
      ensures old(selectedFarmId) == Some(id) ==> selectedFarmId == None
      ensures old(selectedFarmId) != Some(id) ==> selectedFarmId == old(selectedFarmId)
      ensures farmData == old(farmData) && isLoading == old(isLoading) && error == old(error)
    {
      farms := RemoveId(farms, id);
      if selectedFarmId == Some(id) {
        selectedFarmId := None;
      }
    }

    /** `selectFarm`. */
    method SelectFarm(id: Option<string>)
      modifies this
      ensures selectedFarmId == id
      ensures farms == old(farms) && farmData == old(farmData)
      ensures isLoading == old(isLoading) && error == old(error)
    {
      selectedFarmId := id;
    }

    /** `setFarmData`: a copy of the Map with the one key set. */
    method SetFarmData(id: string, data: FarmDetailData)
      requires Valid()
      modifies this
      ensures Valid()
      ensures farmData == SetEntry(old(farmData), id, data)
      ensures Lookup(farmData, id) == Some(data)
      ensures forall k :: k != id ==> Lookup(farmData, k) == Lookup(old(farmData), k)
      ensures farms == old(farms) && selectedFarmId == old(selectedFarmId)
      ensures isLoading == old(isLoading) && error == old(error)
    {
      SetEntryDistinct(farmData, id, data);
      SetEntryLookupSame(farmData, id, data);
      forall k | k != id ensures Lookup(SetEntry(farmData, id, data), k) == Lookup(farmData, k) {
        SetEntryLookupOther(farmData, id, data, k);
      }
      farmData := SetEntry(farmData, id, data);
    }

    /** `setLoading`. */
    method SetLoading(loading: bool)
      modifies this
      ensures isLoading == loading
      ensures farms == old(farms) && selectedFarmId == old(selectedFarmId)
      ensures farmData == old(farmData) && error == old(error)
    {
      isLoading := loading;
    }

    /** `setError`. */
    method SetError(newError: Option<string>)
      modifies this
      ensures error == newError
      ensures farms == old(farms) && selectedFarmId == old(selectedFarmId)
      ensures farmData == old(farmData) && isLoading == old(isLoading)
    {
      error := newError;
    }

    /** `getSelectedFarm`: the first farm with the selected id; none when
      nothing is selected, since no id equals null. */
    function GetSelectedFarm(): (r: Option<Farm>)
      reads this
      ensures selectedFarmId.None? ==> r.None?
      ensures r.Some? ==> selectedFarmId.Some? && r.value.id == selectedFarmId.value && r.value in farms
      ensures r.None? && selectedFarmId.Some? ==> forall i :: 0 <= i < |farms| ==> farms[i].id != selectedFarmId.value
      ensures r.Some? ==>
        exists i :: 0 <= i < |farms| && farms[i] == r.value && forall j :: 0 <= j < i ==> farms[j].id != r.value.id
    {
      match selectedFarmId
      case None => None
      case Some(id) =>
        match FirstIndex(farms, (f: Farm) => f.id == id)
        case None => None
        case Some(i) => Some(farms[i])
    }

    /** `getSelectedFarmData`: nothing when no id (or the empty id) is
      selected, otherwise the record stored under it, if any. */
    function GetSelectedFarmData(): (r: Option<FarmDetailData>)
      reads this
      ensures !Truthy(selectedFarmId) ==> r.None?
      ensures Truthy(selectedFarmId) ==> r == Lookup(farmData, selectedFarmId.value)
    {
      if !Truthy(selectedFarmId) then None else Lookup(farmData, selectedFarmId.value)
    }

    /** `getAllMRVSummaries`: the summary of every record, in the Map's order. */
    method GetAllMRVSummaries() returns (summaries: seq<FarmMRVData>)
      ensures |summaries| == |farmData|
      ensures forall i :: 0 <= i < |farmData| ==> summaries[i] == farmData[i].1.mrv_summary
    {
      summaries := [];
      for i := 0 to |farmData|
        invariant |summaries| == i
        invariant forall j :: 0 <= j < i ==> summaries[j] == farmData[j].1.mrv_summary
      {
        summaries := summaries + [farmData[i].1.mrv_summary];
      }
    }
  }
}

=== FILE: farms_route.dfy ===
/** The farm registry behind the farms API route (src/app/api/farms/route.ts):
    a module-level list that starts as the ten demonstration farms, a POST
    that validates the body, builds the farm and appends it when no database
    takes it, and a GET that falls back to the list. The database client, the
    geometry library, the clock and the id generator are parameters. */
module FarmsRoute {
  import opened Common
  import opened Types

  // ----------------------------------------------------------- demo farms

  /** The closed ring of a rectangular plot: north-west, north-east,
      south-east, south-west and north-west again. */
  function Rectangle(west: real, north: real, east: real, south: real): (p: Polygon)
    ensures |p.coordinates| == 1 && |p.coordinates[0]| == 5
    ensures p.coordinates[0][0] == p.coordinates[0][4]
  {
    Polygon([[Position(west, north), Position(east, north), Position(east, south),
              Position(west, south), Position(west, north)]])
  }

  /** A demonstration farm; all of them lie in Guatemala. */
  function DemoFarm(id: string, name: string, farmer: FarmerInfo, polygon: Polygon, centroid: Coordinates,
                    area_ha: real, altitude_m: real, region: string, created_at: string, updated_at: string)
    : (f: Farm)
    ensures f.id == id && f.country == "Guatemala" && f.altitude_m == altitude_m
  {
    Farm(id, name, farmer, polygon, centroid, area_ha, altitude_m, "Guatemala", region, created_at, updated_at)
  }

  /** `DEMO_FARMS`. */
  const DemoFarms: seq<Farm> := [
      DemoFarm("farm_demo_001", "Finca El Paraíso", FarmerInfo("Carlos Mendoza", Some("+502 5555-1234"), Some("Cooperativa Huehuetenango")),
               Rectangle(-91.5123, 15.3245, -91.5089, 15.3212), Coordinates(-91.5106, 15.32285),
               12.5, 1650.0, "Huehuetenango", "2024-01-15T10:00:00Z", "2024-11-01T14:30:00Z"),
      DemoFarm("farm_demo_002", "Finca Santa Rosa", FarmerInfo("María García", Some("+502 5555-2345"), Some("Cooperativa Antigua")),
               Rectangle(-90.7234, 14.5567, -90.7198, 14.5534), Coordinates(-90.7216, 14.55505),
               8.3, 1520.0, "Antigua Guatemala", "2024-02-20T09:00:00Z", "2024-10-28T11:15:00Z"),
      DemoFarm("farm_demo_003", "Finca Los Volcanes", FarmerInfo("Pedro Hernández", Some("+502 5555-3456"), Some("Asociación Atitlán")),
               Rectangle(-91.1876, 14.6789, -91.1834, 14.6752), Coordinates(-91.1855, 14.67705),
               15.7, 1780.0, "Sololá", "2024-03-10T08:30:00Z", "2024-11-05T16:45:00Z"),
      DemoFarm("farm_demo_004", "Finca El Bosque", FarmerInfo("Ana López", Some("+502 5555-4567"), Some("Cooperativa Cobán")),
               Rectangle(-90.3654, 15.4723, -90.3612, 15.4686), Coordinates(-90.3633, 15.47045),
               22.1, 1340.0, "Alta Verapaz", "2024-04-05T11:00:00Z", "2024-10-30T09:20:00Z"),
      DemoFarm("farm_demo_005", "Finca Montaña Verde", FarmerInfo("Roberto Castillo", Some("+502 5555-5678"), Some("Cooperativa Huehuetenango")),
               Rectangle(-91.4567, 15.2890, -91.4523, 15.2851), Coordinates(-91.4545, 15.28705),
               18.9, 1890.0, "Huehuetenango", "2024-05-12T14:00:00Z", "2024-11-02T10:30:00Z"),
      DemoFarm("farm_demo_006", "Finca Agua Dulce", FarmerInfo("Elena Morales", Some("+502 5555-6789"), Some("Asociación San Marcos")),
               Rectangle(-91.8234, 14.9567, -91.8189, 14.9528), Coordinates(-91.82115, 14.95475),
               11.2, 1720.0, "San Marcos", "2024-06-08T10:30:00Z", "2024-10-25T15:00:00Z"),
      DemoFarm("farm_demo_007", "Finca El Cielo", FarmerInfo("Jorge Ramírez", Some("+502 5555-7890"), Some("Cooperativa Fraijanes")),
               Rectangle(-90.4876, 14.4234, -90.4832, 14.4195), Coordinates(-90.4854, 14.42145),
               9.8, 1480.0, "Guatemala", "2024-07-15T09:00:00Z", "2024-11-08T12:45:00Z"),
      DemoFarm("farm_demo_008", "Finca Tierra Fértil", FarmerInfo("Lucía Vásquez", Some("+502 5555-8901"), Some("Asociación Atitlán")),
               Rectangle(-91.2123, 14.7456, -91.2078, 14.7417), Coordinates(-91.21005, 14.74365),
               14.3, 1620.0, "Sololá", "2024-08-20T13:00:00Z", "2024-10-22T08:30:00Z"),
      DemoFarm("farm_demo_009", "Finca Arcoíris", FarmerInfo("Miguel Santos", Some("+502 5555-9012"), Some("Cooperativa Cobán")),
               Rectangle(-90.4123, 15.5234, -90.4078, 15.5195), Coordinates(-90.41005, 15.52145),
               20.5, 1280.0, "Alta Verapaz", "2024-09-10T11:30:00Z", "2024-11-10T14:15:00Z"),
      DemoFarm("farm_demo_010", "Finca Sol Naciente", FarmerInfo("Carmen Ortiz", Some("+502 5555-0123"), Some("Cooperativa Antigua")),
               Rectangle(-90.7567, 14.5123, -90.7522, 14.5084), Coordinates(-90.75445, 14.51035),
               7.6, 1550.0, "Antigua Guatemala", "2024-10-05T08:00:00Z", "2024-11-12T10:00:00Z")
  ]

  // ------------------------------------------------------------------ POST

  /** The parsed JSON body; a field the body lacks is None. */
  datatype CreateFarmInput = CreateFarmInput(
    name: Option<string>,
    farmer_info: Option<FarmerInfo>,
    polygon: Option<Polygon>,
    country: Option<string>,
    region: Option<string>)

  /** `!name || !polygon || !country || !region` fails: every required
      field is present and no required string is empty. */
  predicate HasRequiredFields(body: CreateFarmInput) {
    Truthy(body.name) && body.polygon.Some? && Truthy(body.country) && Truthy(body.region)
  }

  const UnknownFarmer: FarmerInfo := FarmerInfo("Unknown", None, None)

  /** Altitude given to every farm created through the API, in metres. */
  const DefaultAltitude: real := 1500.0

  /** The farm a valid body becomes: `geometry` is the geometry library's
      area and centroid of the polygon, `id` the generated id, and `createdAt`
      and `updatedAt` the two ISO clock readings taken for the record. */
  function NewFarm(body: CreateFarmInput, geometry: Geometry, id: string, createdAt: string, updatedAt: string): (f: Farm)
    requires HasRequiredFields(body)
    ensures f.id == id && f.name == body.name.value && f.polygon == body.polygon.value
    ensures f.country == body.country.value && f.region == body.region.value
    ensures f.farmer_info == if body.farmer_info.Some? then body.farmer_info.value else UnknownFarmer
    ensures f.altitude_m == DefaultAltitude
    ensures f.centroid == geometry.centroid
    ensures geometry.area_ha - 0.005 < f.area_ha <= geometry.area_ha + 0.005
    ensures f.created_at == createdAt && f.updated_at == updatedAt
  {
    RoundError(geometry.area_ha, 100.0);
    Farm(id, body.name.value, body.farmer_info.GetOr(UnknownFarmer), body.polygon.value, geometry.centroid,
         Round(geometry.area_ha, 100.0), DefaultAltitude, body.country.value, body.region.value, createdAt, updatedAt)
  }

  /** A created farm's area is kept to two decimals: an area already on the
      0.01 ha grid is stored as it is. */
  lemma NewFarmAreaOnGrid(body: CreateFarmInput, geometry: Geometry, id: string, createdAt: string, updatedAt: string, hundredths: int)
    requires HasRequiredFields(body)
    requires geometry.area_ha == hundredths as real / 100.0
    ensures NewFarm(body, geometry, id, createdAt, updatedAt).area_ha == geometry.area_ha
  {
    RoundOnGrid(hundredths, 100.0);
  }

  /** What the configured database does with the insert: no client at all,
      an error answer, the stored row, or a thrown exception. */
  datatype InsertOutcome = NoDatabase | InsertError | Inserted(row: Farm) | InsertThrew

  /** The answers of POST: 201 with a farm, 400 for a missing field and 500
      when the body cannot be parsed or something throws. */
  datatype PostResponse = Created(farm: Farm) | MissingFields | CreateFailed

  function Status(r: PostResponse): (code: int)
    ensures code in {201, 400, 500}
  {
    match r
    case Created(_) => 201
    case MissingFields => 400
    case CreateFailed => 500
  }

  /** One POST against the in-memory list: the list afterwards and the
      answer. `body` is None when the request body is not JSON, `geometry`
      None when the geometry library rejects the polygon. */
  function PostStep(farms: seq<Farm>, body: Option<CreateFarmInput>, geometry: Option<Geometry>,
                    insert: InsertOutcome, id: string, createdAt: string, updatedAt: string)
    : (step: (seq<Farm>, PostResponse))
    ensures body.None? ==> step == (farms, CreateFailed)
    ensures body.Some? && !HasRequiredFields(body.value) ==> step == (farms, MissingFields)
    ensures body.Some? && HasRequiredFields(body.value) && geometry.None? ==> step == (farms, CreateFailed)
    ensures body.Some? && HasRequiredFields(body.value) && geometry.Some? ==>
      var f := NewFarm(body.value, geometry.value, id, createdAt, updatedAt);
      match insert
      case NoDatabase => step == (farms + [f], Created(f))
      case InsertError => step == (farms + [f], Created(f))
      case Inserted(row) => step == (farms, Created(row))
      case InsertThrew => step == (farms, CreateFailed)
    ensures step.0 == farms || step.0 == farms + [step.1.farm]
  {
    match body
    case None => (farms, CreateFailed)
    case Some(input) =>
      if !HasRequiredFields(input) then (farms, MissingFields)
      else match geometry
        case None => (farms, CreateFailed)
        case Some(g) =>
          var f := NewFarm(input, g, id, createdAt, updatedAt);
          match insert
          case NoDatabase => (farms + [f], Created(f))
          case InsertError => (farms + [f], Created(f))
          case Inserted(row) => (farms, Created(row))
          case InsertThrew => (farms, CreateFailed)
  }

  /** Every farm the in-memory list holds beyond the demonstration farms
      came through POST: it has the required fields and the default altitude. */
  predicate Appended(f: Farm) {
    f.name != "" && f.country != "" && f.region != "" && f.altitude_m == DefaultAltitude
  }

  /** The in-memory list: the demonstration farms, in order, followed by
      farms created through POST. */
  predicate RegistryShape(farms: seq<Farm>) {
    |DemoFarms| <= |farms| && farms[..|DemoFarms|] == DemoFarms &&
    forall i :: |DemoFarms| <= i < |farms| ==> Appended(farms[i])
  }

  /** POST keeps the shape of the list: demonstration farms are never
      removed or changed, and only well-formed farms are appended. */
  lemma {:induction false} PostKeepsRegistryShape(farms: seq<Farm>, body: Option<CreateFarmInput>,
                                                  geometry: Option<Geometry>, insert: InsertOutcome,
                                                  id: string, createdAt: string, updatedAt: string)
    requires RegistryShape(farms)
    ensures RegistryShape(PostStep(farms, body, geometry, insert, id, createdAt, updatedAt).0)
  {
    var after := PostStep(farms, body, geometry, insert, id, createdAt, updatedAt).0;
    if after != farms {
      var f := NewFarm(body.value, geometry.value, id, createdAt, updatedAt);
      assert after == farms + [f];
      assert after[..|DemoFarms|] == farms[..|DemoFarms|];
      assert Appended(f);
    }
  }

  /** A successful in-memory POST grows the list by exactly one farm, the
      one it answers with; any other answer leaves the list as it was. */
  lemma PostAppendsAtMostOne(farms: seq<Farm>, body: Option<CreateFarmInput>, geometry: Option<Geometry>,
                             insert: InsertOutcome, id: string, createdAt: string, updatedAt: string)
    ensures var step := PostStep(farms, body, geometry, insert, id, createdAt, updatedAt);
            && (Status(step.1) != 201 ==> step.0 == farms)
            && (step.0 != farms ==> step.1.Created? && step.0 == farms + [step.1.farm])
  {
  }

  // ------------------------------------------------------------------- GET

  /** What the configured database answers to the select: no client, an
      error answer, rows (None for a null `data`), or a thrown exception. */
  datatype SelectOutcome = NoClient | SelectError | Rows(data: Option<seq<Farm>>) | SelectThrew

  // -------------------------------------------------------------- registry

  /** The module-level `inMemoryFarms` of one server process. */
  class FarmRegistry {
    var inMemoryFarms: seq<Farm>

    ghost predicate Valid()
      reads this
    {
      RegistryShape(inMemoryFarms)
    }

    /** `[...DEMO_FARMS]`. */
    constructor()
      ensures inMemoryFarms == DemoFarms
      ensures Valid()
    {
      inMemoryFarms := DemoFarms;
    }

    /** `POST /api/farms`. */
    method Post(body: Option<CreateFarmInput>, geometry: Option<Geometry>, insert: InsertOutcome,
                id: string, createdAt: string, updatedAt: string)
      returns (response: PostResponse)
      requires Valid()
      modifies this
      ensures (inMemoryFarms, response) == PostStep(old(inMemoryFarms), body, geometry, insert, id, createdAt, updatedAt)
      ensures Valid()
    {
      PostKeepsRegistryShape(inMemoryFarms, body, geometry, insert, id, createdAt, updatedAt);
      if body.None? {
        return CreateFailed;
      }
      var input := body.value;
      if !Truthy(input.name) || input.polygon.None? || !Truthy(input.country) || !Truthy(input.region) {
        return MissingFields;
      }
      if geometry.None? {
        return CreateFailed;
      }
      var newFarm := NewFarm(input, geometry.value, id, createdAt, updatedAt);
      match insert {
        case NoDatabase =>
          inMemoryFarms := inMemoryFarms + [newFarm];
          response := Created(newFarm);
        case InsertError =>
          inMemoryFarms := inMemoryFarms + [newFarm];
          response := Created(newFarm);
        case Inserted(row) =>
          response := Created(row);
        case InsertThrew =>
          response := CreateFailed;
      }
    }

    /** `GET /api/farms`: the database's rows when it answers with rows,
      otherwise the in-memory list. */
    function Get(select: SelectOutcome): (r: seq<Farm>)
      reads this
      ensures !select.Rows? ==> r == inMemoryFarms
      ensures select.Rows? && select.data.Some? ==> r == select.data.value
      ensures select.Rows? && select.data.None? ==> r == []
    {
      match select
      case Rows(data) => data.GetOr([])
      case _ => inMemoryFarms
    }
  }
}

=== FILE: forest_change.dfy ===
/** Forest-cover change of src/services/forest-change.ts: the NDVI-based
    detector, the threshold logic applied to a Global Forest Watch answer and
    the synthetic fallback. */
module ForestChange {
  import opened Common
  import opened Types

  /** One `{ date, ndvi }` sample of the detector's input. */
  datatype NdviPoint = NdviPoint(date: string, ndvi: real)

  /** The detector's answer; the magnitude is NaN when there is no history. */
  datatype NdviChange = NdviChange(loss_detected: bool, gain_detected: bool, change_magnitude: Num)

  const DefaultThreshold: real := 0.15

  /** The number of samples in the recent window. */
  const RecentWindow: nat := 4

  function NdviValues(s: seq<NdviPoint>): (r: seq<real>)
    ensures |r| == |s| && forall i :: 0 <= i < |s| ==> r[i] == s[i].ndvi
  {
    Project(s, (p: NdviPoint) => p.ndvi)
  }

  /** recentMean − historicalMean before rounding. The recent window is
      `slice(-4)` and the history `slice(0, -4)`; with exactly four samples the
      history is empty and its mean is 0/0, that is NaN. */
  function ChangeMagnitude(series: seq<NdviPoint>): Num
    requires |series| >= RecentWindow
  {
    var n := |series|;
    var recentMean := Mean(NdviValues(series[n - RecentWindow..]));
    if n == RecentWindow then NaN
    else Val(recentMean - Mean(NdviValues(series[..n - RecentWindow])))
  }

  /** `detectForestChangeFromNDVI`. */
  function DetectForestChangeFromNDVI(series: seq<NdviPoint>, threshold: real): (r: NdviChange)
    ensures |series| < RecentWindow ==> r == NdviChange(false, false, Val(0.0))
    ensures |series| >= RecentWindow ==>
      && (r.loss_detected <==> Below(ChangeMagnitude(series), -threshold))
      && (r.gain_detected <==> Above(ChangeMagnitude(series), threshold))
      && r.change_magnitude == RoundNum(ChangeMagnitude(series), 1000.0)
  {
    if |series| < RecentWindow then NdviChange(false, false, Val(0.0))
    else
      var changeMagnitude := ChangeMagnitude(series);
      NdviChange(Below(changeMagnitude, -threshold), Above(changeMagnitude, threshold),
                 RoundNum(changeMagnitude, 1000.0))
  }

  /** The magnitude is the mean of exactly the last four samples minus the
      mean of every sample before them. */
  lemma ChangeMagnitudeOfWindows(history: seq<NdviPoint>, recent: seq<NdviPoint>)
    requires |history| > 0 && |recent| == RecentWindow
    ensures ChangeMagnitude(history + recent)
         == Val(Mean(NdviValues(recent)) - Mean(NdviValues(history)))
  {
    var s := history + recent;
    assert s[|s| - RecentWindow..] == recent;
    assert s[..|s| - RecentWindow] == history;
  }

  /** For a non-negative threshold the two flags exclude each other. */
  lemma LossAndGainExclusive(series: seq<NdviPoint>, threshold: real)
    requires threshold >= 0.0
    ensures var r := DetectForestChangeFromNDVI(series, threshold);
            !(r.loss_detected && r.gain_detected)
  {
  }

  /** Exactly four samples leave no history, so neither flag is raised
      whatever the values and the threshold. */
  lemma NoHistoryNoChange(series: seq<NdviPoint>, threshold: real)
    requires |series| == RecentWindow
    ensures var r := DetectForestChangeFromNDVI(series, threshold);
            !r.loss_detected && !r.gain_detected && r.change_magnitude.NaN?
  {
  }

  /** Both comparisons are strict: a change of exactly the threshold, in
      either direction, flags nothing. */
  lemma ThresholdIsExclusive(series: seq<NdviPoint>, threshold: real)
    requires |series| > RecentWindow
    requires ChangeMagnitude(series) == Val(threshold) || ChangeMagnitude(series) == Val(-threshold)
    requires threshold >= 0.0
    ensures var r := DetectForestChangeFromNDVI(series, threshold);
            !r.loss_detected && !r.gain_detected
  {
  }

  /** A step from a steady history level `h` to a steady recent level `v`
      is a loss iff it falls by more than the threshold and a gain iff it
      rises by more than the threshold. */
  lemma StepChange(history: seq<NdviPoint>, recent: seq<NdviPoint>, h: real, v: real, threshold: real)
    requires |history| > 0 && |recent| == RecentWindow
    requires forall i :: 0 <= i < |history| ==> history[i].ndvi == h
    requires forall i :: 0 <= i < |recent| ==> recent[i].ndvi == v
    ensures var r := DetectForestChangeFromNDVI(history + recent, threshold);
            (r.loss_detected <==> v - h < -threshold) && (r.gain_detected <==> v - h > threshold)
  {
    ChangeMagnitudeOfWindows(history, recent);
    MeanOfConstant(NdviValues(history), h);
    MeanOfConstant(NdviValues(recent), v);
  }

  // ------------------------------------------------ Global Forest Watch

  /** The attributes of a tree-cover query answer; a field the answer lacks is None. */
  datatype GfwAttributes = GfwAttributes(treeCoverLoss: Option<real>, treeCoverGain: Option<real>)

  /** The outcome of the query: an answer, or a request that threw. */
  datatype GfwResponse = GfwAnswer(attributes: GfwAttributes) | GfwFailed

  /** `x || 0` on an optional number. */
  function OrZero(x: Option<real>): (r: real)
    ensures x.None? ==> r == 0.0
    ensures x.Some? ==> r == x.value
  {
    x.GetOr(0.0)
  }

  /** An area counts as a detection above 0.1 ha. */
  const DetectionAreaHa: real := 0.1

  /** The threshold logic applied to an answer; `today` is formatDate(new Date()). */
  function ForestChangeFromGfw(attributes: GfwAttributes, today: string): (f: ForestChangeData)
    ensures var lossArea := OrZero(attributes.treeCoverLoss);
            var gainArea := OrZero(attributes.treeCoverGain);
            && (f.loss_detected <==> lossArea > DetectionAreaHa)
            && (f.gain_detected <==> gainArea > DetectionAreaHa)
            && f.loss_area_ha == Round(lossArea, 100.0)
            && f.gain_area_ha == Round(gainArea, 100.0)
            && (f.last_change_date.Some? <==> lossArea > 0.0 || gainArea > 0.0)
            && (f.last_change_date.Some? ==> f.last_change_date.value == today)
  {
    var lossArea := OrZero(attributes.treeCoverLoss);
    var gainArea := OrZero(attributes.treeCoverGain);
    ForestChangeData(
      lossArea > DetectionAreaHa,
      gainArea > DetectionAreaHa,
      Round(lossArea, 100.0),
      Round(gainArea, 100.0),
      if lossArea > 0.0 || gainArea > 0.0 then Some(today) else None)
  }

  /** Every detection is dated, and a detected area is at least 0.1 ha once rounded. */
  lemma GfwDetectionIsDated(attributes: GfwAttributes, today: string)
    ensures var f := ForestChangeFromGfw(attributes, today);
            && (f.loss_detected || f.gain_detected ==> f.last_change_date.Some?)
            && (f.loss_detected ==> f.loss_area_ha >= 0.1)
            && (f.gain_detected ==> f.gain_area_ha >= 0.1)
  {
    var lossArea := OrZero(attributes.treeCoverLoss);
    var gainArea := OrZero(attributes.treeCoverGain);
    RoundOnGrid(10, 100.0);
    if lossArea > DetectionAreaHa {
      RoundMonotone(0.1, lossArea, 100.0);
    }
    if gainArea > DetectionAreaHa {
      RoundMonotone(0.1, gainArea, 100.0);
    }
  }

  /** A small loss of at most 0.1 ha is dated but not detected. */
  lemma SmallLossDatedButNotDetected(loss: real, today: string)
    requires 0.0 < loss <= DetectionAreaHa
    ensures var f := ForestChangeFromGfw(GfwAttributes(Some(loss), None), today);
            !f.loss_detected && !f.gain_detected && f.last_change_date == Some(today)
  {
  }

  /** `fetchForestChangeData` after its request: without an API key, or when
      the request throws, the synthetic answer `generateMockForestChangeData`
      gives for the polygon's bounding box `bbox`, from its four draws and
      past date. */
  function FetchForestChangeData(apiKey: Option<string>, response: GfwResponse, today: string,
                                 bbox: BBox, lossDraw: real, gainDraw: real,
                                 lossAreaDraw: real, gainAreaDraw: real, pastDate: string): (f: ForestChangeData)
    ensures !Truthy(apiKey) || response.GfwFailed? ==>
      f == GenerateMockForestChangeData(bbox, lossDraw, gainDraw, lossAreaDraw, gainAreaDraw, pastDate)
    ensures Truthy(apiKey) && response.GfwAnswer? ==> f == ForestChangeFromGfw(response.attributes, today)
  {
    if !Truthy(apiKey) then GenerateMockForestChangeData(bbox, lossDraw, gainDraw, lossAreaDraw, gainAreaDraw, pastDate)
    else match response
      case GfwFailed => GenerateMockForestChangeData(bbox, lossDraw, gainDraw, lossAreaDraw, gainAreaDraw, pastDate)
      case GfwAnswer(attributes) => ForestChangeFromGfw(attributes, today)
  }

  /** When the fetch falls back to synthetic data, its flags follow the
      draws and its areas lie between 0 and 5 % (loss) or 8 % (gain) of the
      approximate box area, rounded. */
  lemma FetchedSyntheticAreasBounded(apiKey: Option<string>, response: GfwResponse, today: string,
                                     bbox: BBox, lossDraw: real, gainDraw: real,
                                     lossAreaDraw: real, gainAreaDraw: real, pastDate: string)
    requires 0.0 <= lossAreaDraw < 1.0 && 0.0 <= gainAreaDraw < 1.0
    requires !Truthy(apiKey) || response.GfwFailed?
    ensures var f := FetchForestChangeData(apiKey, response, today, bbox, lossDraw, gainDraw,
                                           lossAreaDraw, gainAreaDraw, pastDate);
            && 0.0 <= f.loss_area_ha <= Round(AreaApprox(bbox) * 0.05, 100.0)
            && 0.0 <= f.gain_area_ha <= Round(AreaApprox(bbox) * 0.08, 100.0)
            && (f.loss_detected <==> lossDraw < 0.15) && (f.gain_detected <==> gainDraw < 0.25)
  {
    MockForestAreasBounded(bbox, lossDraw, gainDraw, lossAreaDraw, gainAreaDraw, pastDate);
  }

  // ------------------------------------------------------------ synthetic

  /** |Δlng · Δlat| · 10000, the rough area of the bounding box. */
  function AreaApprox(bbox: BBox): (a: real)
    ensures a >= 0.0
  {
    Abs((bbox.maxLng - bbox.minLng) * (bbox.maxLat - bbox.minLat)) * 10000.0
  }

  /** A synthetic area: `draw · areaApprox · share` when its flag is set and
      0 otherwise, rounded to 2 decimals. */
  function MockAreaHa(flag: bool, draw: real, areaApprox: real, share: real): (r: real)
    ensures !flag ==> r == 0.0
  {
    RoundOnGrid(0, 100.0);
    Round(if flag then draw * areaApprox * share else 0.0, 100.0)
  }

  /** `generateMockForestChangeData`: the draws are the Math.random() results
      of the loss flag, the gain flag and the two areas, and `pastDate` is the
      formatted random date within the past year. */
  function GenerateMockForestChangeData(bbox: BBox, lossDraw: real, gainDraw: real,
                                        lossAreaDraw: real, gainAreaDraw: real,
                                        pastDate: string): (f: ForestChangeData)
    ensures f.loss_detected <==> lossDraw < 0.15
    ensures f.gain_detected <==> gainDraw < 0.25
    ensures !f.loss_detected ==> f.loss_area_ha == 0.0
    ensures !f.gain_detected ==> f.gain_area_ha == 0.0
    ensures f.last_change_date.Some? <==> f.loss_detected || f.gain_detected
  {
    var areaApprox := AreaApprox(bbox);
    var hasLoss := lossDraw < 0.15;
    var hasGain := gainDraw < 0.25;
    ForestChangeData(hasLoss, hasGain,
                     MockAreaHa(hasLoss, lossAreaDraw, areaApprox, 0.05),
                     MockAreaHa(hasGain, gainAreaDraw, areaApprox, 0.08),
                     if hasLoss || hasGain then Some(pastDate) else None)
  }

  /** With a draw in [0, 1) a synthetic area is non-negative and at most the
      share of the approximate area, rounded. */
  lemma {:induction false} MockAreaBounded(flag: bool, draw: real, areaApprox: real, share: real)
    requires 0.0 <= draw < 1.0 && areaApprox >= 0.0 && share >= 0.0
    ensures 0.0 <= MockAreaHa(flag, draw, areaApprox, share) <= Round(areaApprox * share, 100.0)
  {
    var x := if flag then draw * areaApprox * share else 0.0;
    assert areaApprox * share - draw * areaApprox * share == (1.0 - draw) * (areaApprox * share);
    assert 0.0 <= draw * (areaApprox * share);
    assert 0.0 <= x <= areaApprox * share;
    RoundNonNegative(x, 100.0);
    RoundMonotone(x, areaApprox * share, 100.0);
  }

  /** With draws in [0, 1) the synthetic areas are non-negative and at most
      5 % (loss) and 8 % (gain) of the approximate area, rounded. */
  lemma MockForestAreasBounded(bbox: BBox, lossDraw: real, gainDraw: real,
                               lossAreaDraw: real, gainAreaDraw: real, pastDate: string)
    requires 0.0 <= lossAreaDraw < 1.0 && 0.0 <= gainAreaDraw < 1.0
    ensures var f := GenerateMockForestChangeData(bbox, lossDraw, gainDraw, lossAreaDraw, gainAreaDraw, pastDate);
            && 0.0 <= f.loss_area_ha <= Round(AreaApprox(bbox) * 0.05, 100.0)
            && 0.0 <= f.gain_area_ha <= Round(AreaApprox(bbox) * 0.08, 100.0)
  {
    MockAreaBounded(lossDraw < 0.15, lossAreaDraw, AreaApprox(bbox), 0.05);
    MockAreaBounded(gainDraw < 0.25, gainAreaDraw, AreaApprox(bbox), 0.08);
  }
}

=== FILE: sentinel_hub.dfy ===
/** Vegetation indices of src/services/sentinel-hub.ts: the bearer-token
    cache, the mapping of a Statistical API answer to samples and the
    synthetic weekly series. Clock readings (Date.now(), in milliseconds) and
    the token endpoint's answer are parameters. */
module SentinelHub {
  import opened Common
  import opened Types

  // ------------------------------------------------------------ token cache

  /** The module-level `cachedToken`: a token and the instant it stops being used. */
  datatype CachedToken = CachedToken(token: string, expiresAt: int)

  /** The token endpoint's answer; `expires_in` is in seconds. */
  datatype TokenResponse = TokenResponse(access_token: string, expires_in: int)

  datatype TokenError = CredentialsNotConfigured | RequestFailed

  /** A token is refreshed one minute before the endpoint says it expires. */
  const ExpiryMarginSeconds: int := 60

  /** `cachedToken && Date.now() < cachedToken.expiresAt`. */
  predicate IsFresh(cached: Option<CachedToken>, now: int) {
    cached.Some? && now < cached.value.expiresAt
  }

  /** One call of `getAccessToken`: the cache after the call and the token or
      the error it ends with. `now` is the clock when the call starts,
      `refreshedAt` the clock once the endpoint has answered, and `response`
      that answer (None when the request throws). */
  function TokenStep(cached: Option<CachedToken>, clientId: string, clientSecret: string,
                     now: int, refreshedAt: int, response: Option<TokenResponse>)
    : (step: (Option<CachedToken>, Result<string, TokenError>))
    ensures IsFresh(cached, now) ==> step == (cached, Success(cached.value.token))
    ensures !IsFresh(cached, now) && (clientId == "" || clientSecret == "") ==>
      step == (cached, Failure(CredentialsNotConfigured))
    ensures !IsFresh(cached, now) && clientId != "" && clientSecret != "" && response.None? ==>
      step == (cached, Failure(RequestFailed))
    ensures !IsFresh(cached, now) && clientId != "" && clientSecret != "" && response.Some? ==>
      && step.0 == Some(CachedToken(response.value.access_token,
                                    refreshedAt + (response.value.expires_in - ExpiryMarginSeconds) * 1000))
      && step.1 == Success(response.value.access_token)
  {
    if IsFresh(cached, now) then (cached, Success(cached.value.token))
    else if clientId == "" || clientSecret == "" then (cached, Failure(CredentialsNotConfigured))
    else match response
      case None => (cached, Failure(RequestFailed))
      case Some(answer) =>
        var entry := CachedToken(answer.access_token, refreshedAt + (answer.expires_in - ExpiryMarginSeconds) * 1000);
        (Some(entry), Success(entry.token))
  }

  /** A refreshed token is served from the cache, without a request and
      whether or not the credentials are still configured, until one minute
      before its announced expiry; from that instant on the cache is stale
      and the next call asks the endpoint again. */
  lemma RefreshedTokenReusedUntilExpiry(cached: Option<CachedToken>, clientId: string, clientSecret: string,
                                        now: int, refreshedAt: int, answer: TokenResponse,
                                        laterId: string, laterSecret: string,
                                        later: int, laterRefreshedAt: int, laterResponse: Option<TokenResponse>)
    requires !IsFresh(cached, now) && clientId != "" && clientSecret != ""
    ensures var first := TokenStep(cached, clientId, clientSecret, now, refreshedAt, Some(answer));
            var second := TokenStep(first.0, laterId, laterSecret, later, laterRefreshedAt, laterResponse);
            && (later < refreshedAt + (answer.expires_in - ExpiryMarginSeconds) * 1000 ==>
                  second == (first.0, Success(answer.access_token)))
            && (later >= refreshedAt + (answer.expires_in - ExpiryMarginSeconds) * 1000 ==>
                  !IsFresh(first.0, later))
  {
  }

  /** At exactly `expiresAt` the cached token is no longer used: with
      credentials the endpoint's new token is returned and cached. */
  lemma RefreshAtExpiry(entry: CachedToken, clientId: string, clientSecret: string,
                        refreshedAt: int, answer: TokenResponse)
    requires clientId != "" && clientSecret != ""
    ensures TokenStep(Some(entry), clientId, clientSecret, entry.expiresAt, refreshedAt, Some(answer)).1
         == Success(answer.access_token)
  {
  }

  /** The holder of the module-level cache and the configured credentials. */
  class TokenCache {
    var cachedToken: Option<CachedToken>
    const clientId: string
    const clientSecret: string

    /** The module is loaded with an empty cache; `|| ''` turns unset credentials into "". */
    constructor(clientId: string, clientSecret: string)
      ensures cachedToken == None
      ensures this.clientId == clientId && this.clientSecret == clientSecret
    {
      this.cachedToken := None;
      this.clientId := clientId;
      this.clientSecret := clientSecret;
    }

    /** `getAccessToken`. */
    method GetAccessToken(now: int, refreshedAt: int, response: Option<TokenResponse>)
      returns (r: Result<string, TokenError>)
      modifies this
      ensures (cachedToken, r) == TokenStep(old(cachedToken), clientId, clientSecret, now, refreshedAt, response)
      ensures r.Success? ==> cachedToken.Some? && r.value == cachedToken.value.token
    {
      if cachedToken.Some? && now < cachedToken.value.expiresAt {
        return Success(cachedToken.value.token);
      }
      if clientId == "" || clientSecret == "" {
        return Failure(CredentialsNotConfigured);
      }
      if response.None? {
        return Failure(RequestFailed);
      }
      cachedToken := Some(CachedToken(response.value.access_token,
                                      refreshedAt + (response.value.expires_in - ExpiryMarginSeconds) * 1000));
      return Success(cachedToken.value.token);
    }
  }

  // ------------------------------------------------------- answer mapping

  /** One statistics interval of the answer: its `interval.from` and the
      band mean, None when the answer carries none. */
  datatype StatsItem = StatsItem(intervalFrom: string, mean: Option<real>)

  /** Which evalscript produced the answer. */
  datatype IndexKind = NdviIndex | EviIndex

  /** `s.split('T')[0]`: everything before the first 'T'. */
  function DatePart(s: string): (r: string)
    ensures |r| <= |s| && r == s[..|r|]
    ensures 'T' !in r
    ensures |r| < |s| ==> s[|r|] == 'T'
  {
    if |s| == 0 || s[0] == 'T' then "" else [s[0]] + DatePart(s[1..])
  }

  /** `mean || 0`. */
  function StatOrZero(mean: Option<real>): real {
    mean.GetOr(0.0)
  }

  /** The `map` at src/services/sentinel-hub.ts:143-148 (NDVI) and 209-214 (EVI). */
  function MapStatistics(items: seq<StatsItem>, kind: IndexKind): (samples: seq<VegetationIndex>)
    ensures |samples| == |items|
    ensures forall i :: 0 <= i < |items| ==>
      && samples[i].date == DatePart(items[i].intervalFrom)
      && samples[i].ndvi == (if kind == NdviIndex then StatOrZero(items[i].mean) else 0.0)
      && samples[i].evi == (if kind == EviIndex then StatOrZero(items[i].mean) else 0.0)
      && samples[i].cloud_cover == 0.0
  {
    if |items| == 0 then []
    else
      var item := items[0];
      var value := StatOrZero(item.mean);
      var sample := match kind
        case NdviIndex => VegetationIndex(DatePart(item.intervalFrom), value, 0.0, 0.0)
        case EviIndex => VegetationIndex(DatePart(item.intervalFrom), 0.0, value, 0.0);
      [sample] + MapStatistics(items[1..], kind)
  }

  /** Mapping commutes with concatenating answers: samples keep the order of
      the intervals. */
  lemma {:induction false} MapStatisticsAppend(a: seq<StatsItem>, b: seq<StatsItem>, kind: IndexKind)
    ensures MapStatistics(a + b, kind) == MapStatistics(a, kind) + MapStatistics(b, kind)
  {
    if |a| > 0 {
      assert (a + b)[1..] == a[1..] + b;
      MapStatisticsAppend(a[1..], b, kind);
    } else {
      assert a + b == b;
    }
  }

  // ------------------------------------------------------------- synthetic

  /** Days between two synthetic samples. */
  const StepDays: int := 7

  /** `Math.max(0, Math.min(1, x))`. */
  function Clamp01(x: real): (r: real)
    ensures 0.0 <= r <= 1.0
    ensures 0.0 <= x <= 1.0 ==> r == x
    ensures x < 0.0 ==> r == 0.0
    ensures x > 1.0 ==> r == 1.0
  {
    Max(0.0, Min(1.0, x))
  }

  /** One synthetic sample: `seasonalSine` is sin(month / 12 · 2π) of its
      date, `draw` and `cloudDraw` the two Math.random() results of the step. */
  function MockVegetationSample(date: string, seasonalSine: real, draw: real, cloudDraw: real,
                                baseNDVI: real, baseEVI: real): (v: VegetationIndex)
    ensures v.date == date
    ensures 0.0 <= v.ndvi <= 1.0 && 0.0 <= v.evi <= 1.0
  {
    var seasonalVariation := seasonalSine * 0.1;
    var randomVariation := (draw - 0.5) * 0.1;
    VegetationIndex(date,
      Clamp01(baseNDVI + seasonalVariation + randomVariation),
      Clamp01(baseEVI + seasonalVariation * 0.8 + randomVariation * 0.8),
      cloudDraw * 30.0)
  }

  /** How many times `while (currentDate <= endDate)` runs when it steps 7 days. */
  function WeekCount(startDay: int, endDay: int): nat {
    if startDay > endDay then 0 else (endDay - startDay) / StepDays + 1
  }

  /** `generateMockVegetationData` over day numbers: one sample every 7 days
      from `startDay` while the day is not after `endDay`. `formatDay` is
      formatDate and `seasonalSine(d)` the seasonal sine of day d. */
  method GenerateMockVegetationData(startDay: int, endDay: int, baseNDVI: real, baseEVI: real,
                                    draws: seq<real>, cloudDraws: seq<real>,
                                    formatDay: int -> string, seasonalSine: int -> real)
    returns (data: seq<VegetationIndex>)
    requires |draws| >= WeekCount(startDay, endDay) && |cloudDraws| >= WeekCount(startDay, endDay)
    ensures |data| == WeekCount(startDay, endDay)
    ensures startDay > endDay ==> data == []
    ensures forall i :: 0 <= i < |data| ==> startDay + StepDays * i <= endDay
    ensures forall i :: 0 <= i < |data| ==>
      data[i] == MockVegetationSample(formatDay(startDay + StepDays * i), seasonalSine(startDay + StepDays * i),
                                      draws[i], cloudDraws[i], baseNDVI, baseEVI)
    ensures forall i :: 0 <= i < |data| ==> 0.0 <= data[i].ndvi <= 1.0 && 0.0 <= data[i].evi <= 1.0
  {
    data := [];
    var currentDay := startDay;
    while currentDay <= endDay
      invariant currentDay == startDay + StepDays * |data|
      invariant |data| <= WeekCount(startDay, endDay)
      invariant startDay <= endDay ==> |data| == WeekCount(startDay, endDay) || currentDay <= endDay
      invariant forall i :: 0 <= i < |data| ==> startDay + StepDays * i <= endDay
      invariant forall i :: 0 <= i < |data| ==>
        data[i] == MockVegetationSample(formatDay(startDay + StepDays * i), seasonalSine(startDay + StepDays * i),
                                        draws[i], cloudDraws[i], baseNDVI, baseEVI)
      decreases endDay - currentDay
    {
      var k := |data|;
      assert k < WeekCount(startDay, endDay) by {
        assert StepDays * k <= endDay - startDay;
        assert k <= (endDay - startDay) / StepDays;
      }
      var sample := MockVegetationSample(formatDay(currentDay), seasonalSine(currentDay),
                                         draws[k], cloudDraws[k], baseNDVI, baseEVI);
      data := data + [sample];
      currentDay := currentDay + StepDays;
    }
    if startDay <= endDay {
      assert StepDays * |data| > endDay - startDay;
      assert |data| == WeekCount(startDay, endDay);
    }
  }
}

=== FILE: soilgrids.dfy ===
/** Soil organic carbon of src/services/soilgrids.ts: reading the SOC
    baseline and the bulk density out of a SoilGrids answer, the synthetic
    fallback and the projection of the SOC change. A request that throws is
    `None`; the centroid is computed by the caller. */
module SoilGrids {
  import opened Common
  import opened Types

  /** `values` of one depth interval of a layer. */
  datatype DepthValues = DepthValues(mean: real, uncertainty: real)

  /** One depth interval; `depthLabel` is its `label`, and its `range` is not read and is left out. */
  datatype Depth = Depth(depthLabel: string, values: DepthValues)

  datatype Layer = Layer(name: string, depths: seq<Depth>)

  const SocLayerName: string := "soc"
  const BulkDensityLayerName: string := "bdod"
  const TopsoilLabel: string := "0-30cm"

  /** Bulk density used when the answer lacks the layer or the depth. */
  const DefaultBulkDensity: real := 1.3

  /** Projection horizon used when none is given. */
  const DefaultYearsProjected: real := 5.0

  /** `layers[i]` is the first layer called `name`. */
  predicate FirstLayerNamed(layers: seq<Layer>, i: int, name: string) {
    0 <= i < |layers| && layers[i].name == name && forall k :: 0 <= k < i ==> layers[k].name != name
  }

  /** `depths[j]` is the first depth labelled `wanted`. */
  predicate FirstDepthLabelled(depths: seq<Depth>, j: int, wanted: string) {
    0 <= j < |depths| && depths[j].depthLabel == wanted && forall k :: 0 <= k < j ==> depths[k].depthLabel != wanted
  }

  /** No depth is labelled `wanted`. */
  predicate LacksDepth(depths: seq<Depth>, wanted: string) {
    forall j :: 0 <= j < |depths| ==> depths[j].depthLabel != wanted
  }

  /** `layers.find(l => l.name === name)`. */
  function FindLayer(layers: seq<Layer>, name: string): (r: Option<Layer>)
    ensures r.None? <==> forall i :: 0 <= i < |layers| ==> layers[i].name != name
    ensures r.Some? ==> exists i :: FirstLayerNamed(layers, i, name) && r.value == layers[i]
  {
    match FirstIndex(layers, (l: Layer) => l.name == name)
    case None => None
    case Some(i) => Some(layers[i])
  }

  /** `depths.find(d => d.depthLabel === wanted)`. */
  function FindDepth(depths: seq<Depth>, wanted: string): (r: Option<Depth>)
    ensures r.None? <==> LacksDepth(depths, wanted)
    ensures r.Some? ==> exists j :: FirstDepthLabelled(depths, j, wanted) && r.value == depths[j]
  {
    match FirstIndex(depths, (d: Depth) => d.depthLabel == wanted)
    case None => None
    case Some(j) => Some(depths[j])
  }

  /** The part of `fetchSOCBaseline` inside its `try` after the request:
      `None` where it throws because the 'soc' layer or its '0-30cm' depth is
      missing; otherwise the SoilGrids values (in dg/kg) divided by 10, with
      no change projected yet. */
  function ParseSOCBaseline(layers: seq<Layer>): (r: Option<SOCData>)
    ensures (forall i :: 0 <= i < |layers| ==> layers[i].name != SocLayerName) ==> r.None?
    ensures forall i, j :: FirstLayerNamed(layers, i, SocLayerName) && FirstDepthLabelled(layers[i].depths, j, TopsoilLabel) ==>
      r == Some(SOCData(layers[i].depths[j].values.mean / 10.0, layers[i].depths[j].values.mean / 10.0,
                        0.0, layers[i].depths[j].values.uncertainty / 10.0))
    ensures forall i :: FirstLayerNamed(layers, i, SocLayerName) && LacksDepth(layers[i].depths, TopsoilLabel) ==> r.None?
  {
    match FindLayer(layers, SocLayerName)
    case None => None
    case Some(socLayer) =>
      match FindDepth(socLayer.depths, TopsoilLabel)
      case None => None
      case Some(depth) =>
        var baseline := depth.values.mean / 10.0;
        var uncertainty := depth.values.uncertainty / 10.0;
        Some(SOCData(baseline, baseline, 0.0, uncertainty))
  }

  /** baseSOC of the synthetic answer: 25 t/ha plus 1 per degree of latitude
      away from 15°, plus up to ±5 from the draw. */
  function MockBaseSOC(centroid: Coordinates, draw: real): real {
    var latFactor := Abs(centroid.lat - 15.0) / 10.0;
    25.0 + latFactor * 10.0 + (draw - 0.5) * 10.0
  }

  /** `generateMockSOCData`; `socDraw` and `deltaDraw` are its two Math.random() results. */
  function GenerateMockSOCData(centroid: Coordinates, socDraw: real, deltaDraw: real): (r: SOCData)
    ensures r.baseline_0_30cm == Round(MockBaseSOC(centroid, socDraw), 10.0)
    ensures r.uncertainty == Round(MockBaseSOC(centroid, socDraw) * 0.15, 10.0)
  {
    var baseSOC := MockBaseSOC(centroid, socDraw);
    var delta := (deltaDraw - 0.3) * 5.0;
    SOCData(Round(baseSOC, 10.0), Round(baseSOC + delta, 10.0), Round(delta, 10.0), Round(baseSOC * 0.15, 10.0))
  }

  /** With draws in [0, 1) the synthetic baseline is at least 20 t/ha, its
      uncertainty at least 3 t/ha, and the change lies in [−1.5, 3.5]. */
  lemma MockSOCBounds(centroid: Coordinates, socDraw: real, deltaDraw: real)
    requires 0.0 <= socDraw < 1.0 && 0.0 <= deltaDraw < 1.0
    ensures var r := GenerateMockSOCData(centroid, socDraw, deltaDraw);
            r.baseline_0_30cm >= 20.0 && r.uncertainty >= 3.0 && -1.5 <= r.delta <= 3.5
  {
    var baseSOC := MockBaseSOC(centroid, socDraw);
    var delta := (deltaDraw - 0.3) * 5.0;
    assert baseSOC >= 20.0;
    RoundMonotone(20.0, baseSOC, 10.0);
    RoundOnGrid(200, 10.0);
    RoundMonotone(3.0, baseSOC * 0.15, 10.0);
    RoundOnGrid(30, 10.0);
    RoundMonotone(-1.5, delta, 10.0);
    RoundOnGrid(-15, 10.0);
    RoundMonotone(delta, 3.5, 10.0);
    RoundOnGrid(35, 10.0);
  }

  /** `fetchSOCBaseline` after its request: a request that throws or an answer
      without the SOC topsoil value falls back to the synthetic answer. */
  function FetchSOCBaseline(centroid: Coordinates, response: Option<seq<Layer>>,
                            socDraw: real, deltaDraw: real): (r: SOCData)
    ensures response.None? ==> r == GenerateMockSOCData(centroid, socDraw, deltaDraw)
    ensures response.Some? && ParseSOCBaseline(response.value).None? ==> r == GenerateMockSOCData(centroid, socDraw, deltaDraw)
    ensures response.Some? && ParseSOCBaseline(response.value).Some? ==>
      r == ParseSOCBaseline(response.value).value && r.projected == r.baseline_0_30cm && r.delta == 0.0
  {
    match response
    case None => GenerateMockSOCData(centroid, socDraw, deltaDraw)
    case Some(layers) =>
      match ParseSOCBaseline(layers)
      case None => GenerateMockSOCData(centroid, socDraw, deltaDraw)
      case Some(soc) => soc
  }

  /** The part of `fetchBulkDensity` after a successful request: mean / 100
      of the first 'bdod' layer's first '0-30cm' depth, and 1.3 g/cm³ when
      either is missing. */
  function BulkDensityFromLayers(layers: seq<Layer>): (r: real)
    ensures (forall i :: 0 <= i < |layers| ==> layers[i].name != BulkDensityLayerName) ==> r == DefaultBulkDensity
    ensures forall i :: FirstLayerNamed(layers, i, BulkDensityLayerName) && LacksDepth(layers[i].depths, TopsoilLabel) ==>
      r == DefaultBulkDensity
    ensures forall i, j :: FirstLayerNamed(layers, i, BulkDensityLayerName) && FirstDepthLabelled(layers[i].depths, j, TopsoilLabel) ==>
      r == layers[i].depths[j].values.mean / 100.0
  {
    match FindLayer(layers, BulkDensityLayerName)
    case None => DefaultBulkDensity
    case Some(bdodLayer) =>
      match FindDepth(bdodLayer.depths, TopsoilLabel)
      case None => DefaultBulkDensity
      case Some(depth) => depth.values.mean / 100.0
  }

  /** `fetchBulkDensity`: a request that throws gives 1.3 ± 0.1 from the draw. */
  function FetchBulkDensity(response: Option<seq<Layer>>, draw: real): (r: real)
    ensures response.Some? ==> r == BulkDensityFromLayers(response.value)
    ensures response.None? && 0.0 <= draw < 1.0 ==> 1.2 <= r < 1.4
  {
    match response
    case None => DefaultBulkDensity + (draw - 0.5) * 0.2
    case Some(layers) => BulkDensityFromLayers(layers)
  }

  // ------------------------------------------------------------ projection

  /** 0.5 when vegetation is improving (trend > 0), −0.3 otherwise. */
  function VegetationFactor(ndviTrend: real): real {
    if ndviTrend > 0.0 then 0.5 else -0.3
  }

  /** 0.2 when rainfall is above normal (anomaly > 0), −0.1 otherwise. */
  function ClimateFactor(rainfallAnomaly: real): real {
    if rainfallAnomaly > 0.0 then 0.2 else -0.1
  }

  /** The total change before rounding: 2 % of baseline × factor sum per year. */
  function TotalDelta(baseline: real, ndviTrend: real, rainfallAnomaly: real, yearsProjected: real): real {
    var annualChange := baseline * (VegetationFactor(ndviTrend) + ClimateFactor(rainfallAnomaly)) * 0.02;
    annualChange * yearsProjected
  }

  /** `estimateSOCChange`. */
  function EstimateSOCChange(baseline: real, ndviTrend: real, rainfallAnomaly: real, yearsProjected: real): (r: SOCData)
    ensures r.baseline_0_30cm == baseline
    ensures var d := TotalDelta(baseline, ndviTrend, rainfallAnomaly, yearsProjected);
            && r.projected == Round(baseline + d, 10.0)
            && r.delta == Round(d, 10.0)
            && r.uncertainty == Round(Abs(d) * 0.3, 10.0)
    ensures r.uncertainty >= 0.0
  {
    var totalDelta := TotalDelta(baseline, ndviTrend, rainfallAnomaly, yearsProjected);
    RoundNonNegative(Abs(totalDelta) * 0.3, 10.0);
    SOCData(baseline, Round(baseline + totalDelta, 10.0), Round(totalDelta, 10.0),
            Round(Abs(totalDelta) * 0.3, 10.0))
  }

  /** The factor sum is 0.7 or 0.4 with improving vegetation and −0.1 or −0.4
      otherwise, so its sign is the sign of the NDVI trend. */
  lemma FactorSums(ndviTrend: real, rainfallAnomaly: real)
    ensures var s := VegetationFactor(ndviTrend) + ClimateFactor(rainfallAnomaly);
            && (ndviTrend > 0.0 ==> s == 0.7 || s == 0.4)
            && (ndviTrend <= 0.0 ==> s == -0.1 || s == -0.4)
            && (s > 0.0 <==> ndviTrend > 0.0)
  {
  }

  /** With a positive baseline and horizon, soil carbon is projected to grow
      exactly when vegetation is improving, whatever the rainfall; rounding
      keeps the sign weakly. */
  lemma DeltaSignFollowsTrend(baseline: real, ndviTrend: real, rainfallAnomaly: real, yearsProjected: real)
    requires baseline > 0.0 && yearsProjected > 0.0
    ensures TotalDelta(baseline, ndviTrend, rainfallAnomaly, yearsProjected) > 0.0 <==> ndviTrend > 0.0
    ensures var r := EstimateSOCChange(baseline, ndviTrend, rainfallAnomaly, yearsProjected);
            (ndviTrend > 0.0 ==> r.delta >= 0.0) && (ndviTrend <= 0.0 ==> r.delta <= 0.0)
  {
    var s := VegetationFactor(ndviTrend) + ClimateFactor(rainfallAnomaly);
    FactorSums(ndviTrend, rainfallAnomaly);
    var d := TotalDelta(baseline, ndviTrend, rainfallAnomaly, yearsProjected);
    assert d == (baseline * 0.02 * yearsProjected) * s;
    assert baseline * 0.02 * yearsProjected > 0.0;
    RoundOnGrid(0, 10.0);
    if ndviTrend > 0.0 {
      assert d > 0.0;
      RoundMonotone(0.0, d, 10.0);
    } else {
      assert d < 0.0;
      RoundMonotone(d, 0.0, 10.0);
    }
  }

  /** The rounded projection stays within a twentieth of baseline + delta. */
  lemma ProjectionNearBaselinePlusDelta(baseline: real, ndviTrend: real, rainfallAnomaly: real, yearsProjected: real)
    ensures var r := EstimateSOCChange(baseline, ndviTrend, rainfallAnomaly, yearsProjected);
            var d := TotalDelta(baseline, ndviTrend, rainfallAnomaly, yearsProjected);
            baseline + d - 0.05 < r.projected <= baseline + d + 0.05
  {
    RoundError(baseline + TotalDelta(baseline, ndviTrend, rainfallAnomaly, yearsProjected), 10.0);
  }
}

=== FILE: terrain.dfy ===
/** Terrain analysis of src/services/terrain.ts: slope bands, the ARR and IFM
    suitability predicates, aspect from corner elevations, the relief read
    from an Open-Elevation answer and the synthetic fallback. */
module Terrain {
  import opened Common
  import opened Types

  // ------------------------------------------------------------ slope bands

  /** The labels 'Flat', 'Gentle', 'Moderate', 'Steep' and 'Very Steep'. */
  datatype SlopeClass = Flat | Gentle | Moderate | Steep | VerySteep

  /** Position of a band from flat (0) to very steep (4). */
  function Rank(c: SlopeClass): nat {
    match c
    case Flat => 0
    case Gentle => 1
    case Moderate => 2
    case Steep => 3
    case VerySteep => 4
  }

  /** How many of the band boundaries 5°, 15°, 25° and 35° a slope has reached. */
  function BoundariesReached(slopeDegrees: real): nat {
    (if slopeDegrees >= 5.0 then 1 else 0) + (if slopeDegrees >= 15.0 then 1 else 0)
    + (if slopeDegrees >= 25.0 then 1 else 0) + (if slopeDegrees >= 35.0 then 1 else 0)
  }

  /** `classifySlope`: the band is the number of boundaries reached. */
  function ClassifySlope(slopeDegrees: real): (c: SlopeClass)
    ensures Rank(c) == BoundariesReached(slopeDegrees)
  {
    if slopeDegrees < 5.0 then Flat
    else if slopeDegrees < 15.0 then Gentle
    else if slopeDegrees < 25.0 then Moderate
    else if slopeDegrees < 35.0 then Steep
    else VerySteep
  }

  /** A steeper slope never falls in a flatter band. */
  lemma ClassifySlopeMonotone(s: real, t: real)
    requires s <= t
    ensures Rank(ClassifySlope(s)) <= Rank(ClassifySlope(t))
  {
    assert BoundariesReached(s) <= BoundariesReached(t);
  }

  /** `isARRSuitable`: gentle enough and low enough for afforestation. */
  predicate IsARRSuitable(terrain: TerrainData) {
    terrain.slope_degrees < 30.0 && terrain.elevation_m < 2500.0
  }

  /** `isIFMSuitable`: gentle enough for improved forest management. */
  predicate IsIFMSuitable(terrain: TerrainData) {
    terrain.slope_degrees < 35.0
  }

  /** Every ARR-suitable terrain is IFM-suitable. */
  lemma ARRImpliesIFM(terrain: TerrainData)
    requires IsARRSuitable(terrain)
    ensures IsIFMSuitable(terrain)
  {
  }

  /** IFM-suitable terrain is exactly terrain not classified 'Very Steep'. */
  lemma IFMIffNotVerySteep(terrain: TerrainData)
    ensures IsIFMSuitable(terrain) <==> ClassifySlope(terrain.slope_degrees) != VerySteep
  {
    assert Rank(ClassifySlope(terrain.slope_degrees)) == BoundariesReached(terrain.slope_degrees);
  }

  // ---------------------------------------------------------------- aspect

  /** The compass labels in clockwise order from north, 45° apart. */
  const CompassLabels: seq<Aspect> := [North, NorthEast, East, SouthEast, South, SouthWest, West, NorthWest]

  /** The bucketing of an angle in degrees at src/services/terrain.ts:69-76. */
  function AspectFromAngle(angle: real): Aspect {
    if angle >= -22.5 && angle < 22.5 then North
    else if angle >= 22.5 && angle < 67.5 then NorthEast
    else if angle >= 67.5 && angle < 112.5 then East
    else if angle >= 112.5 && angle < 157.5 then SouthEast
    else if angle >= 157.5 || angle < -157.5 then South
    else if angle >= -157.5 && angle < -112.5 then SouthWest
    else if angle >= -112.5 && angle < -67.5 then West
    else NorthWest
  }

  /** The 45° sector, counted clockwise from the one centred on north, that holds `angle`. */
  function Sector(angle: real): (k: int)
    ensures 0 <= k < 8
  {
    ((angle + 22.5) / 45.0).Floor % 8
  }

  /** Every angle of atan2's range [−180°, 180°] gets the label of the 45°
      sector it lies in: N for [−22.5°, 22.5°), NE for [22.5°, 67.5°), and so
      on clockwise, S taking both ends of the range. */
  lemma AspectIsSector(angle: real)
    requires -180.0 <= angle <= 180.0
    ensures AspectFromAngle(angle) == CompassLabels[Sector(angle)]
  {
    var k := ((angle + 22.5) / 45.0).Floor;
    assert k as real * 45.0 <= angle + 22.5 < (k as real + 1.0) * 45.0;
    assert -4 <= k <= 4;
    if k == -4 {
      assert Sector(angle) == 4;
    } else if k == -3 {
      assert Sector(angle) == 5;
    } else if k == -2 {
      assert Sector(angle) == 6;
    } else if k == -1 {
      assert Sector(angle) == 7;
    } else {
      assert Sector(angle) == k;
    }
  }

  /** The fallback `elevations[i] || elevations[0]`: a corner whose elevation
      is missing or 0 takes the centre's. */
  function Corner(elevations: seq<real>, i: nat): (r: real)
    requires |elevations| > 0
    ensures i < |elevations| && elevations[i] != 0.0 ==> r == elevations[i]
    ensures i >= |elevations| || elevations[i] == 0.0 ==> r == elevations[0]
  {
    if i < |elevations| && elevations[i] != 0.0 then elevations[i] else elevations[0]
  }

  /** `calculateAspect` as written. The elevations are those of the points
      [centre, (minLat, minLng), (maxLat, maxLng), (minLat, maxLng),
      (maxLat, minLng)], so `north` reads the south-east corner and `south`
      the south-west one; `atan2Deg` is Math.atan2 in degrees. */
  function CalculateAspect(elevations: seq<real>, atan2Deg: (real, real) -> real): Aspect
    requires |elevations| > 0
  {
    var north := Corner(elevations, 3);
    var south := Corner(elevations, 1);
    var east := Corner(elevations, 2);
    var west := Corner(elevations, 4);
    AspectFromAngle(atan2Deg(east - west, north - south))
  }

  /** The corner elevations of a plane tilted only north–south: `low` on the
      southern edge and `high` on the northern one. */
  function NorthSouthTilt(centre: real, low: real, high: real): seq<real> {
    [centre, low, high, low, high]
  }

  /** As written, both gradients are east–west differences: a slope rising to
      the north and the same slope rising to the south get the same aspect,
      whatever atan2 returns. */
  lemma AspectBlindToNorthSouth(centre: real, low: real, high: real, atan2Deg: (real, real) -> real)
    requires low != 0.0 && high != 0.0
    ensures CalculateAspect(NorthSouthTilt(centre, low, high), atan2Deg)
         == CalculateAspect(NorthSouthTilt(centre, high, low), atan2Deg)
  {
    var up := NorthSouthTilt(centre, low, high);
    var down := NorthSouthTilt(centre, high, low);
    assert Corner(up, 3) - Corner(up, 1) == 0.0 && Corner(up, 2) - Corner(up, 4) == 0.0;
    assert Corner(down, 3) - Corner(down, 1) == 0.0 && Corner(down, 2) - Corner(down, 4) == 0.0;
  }

  /** The aspect with the gradients taken between opposite edges of the box:
      north minus south edge and east minus west edge, each edge the mean of
      its two corners. */
  function CalculateAspectCorrected(elevations: seq<real>, atan2Deg: (real, real) -> real): Aspect
    requires |elevations| > 0
  {
    var sw := Corner(elevations, 1);
    var ne := Corner(elevations, 2);
    var se := Corner(elevations, 3);
    var nw := Corner(elevations, 4);
    var nsGradient := (ne + nw) / 2.0 - (sw + se) / 2.0;
    var ewGradient := (ne + se) / 2.0 - (sw + nw) / 2.0;
    AspectFromAngle(atan2Deg(ewGradient, nsGradient))
  }

  /** atan2 in degrees on the north–south axis: 0° for any point straight
      ahead and 180° for any point straight behind. */
  ghost predicate Atan2OnAxis(atan2Deg: (real, real) -> real) {
    forall x: real :: (x > 0.0 ==> atan2Deg(0.0, x) == 0.0) && (x < 0.0 ==> atan2Deg(0.0, x) == 180.0)
  }

  /** With the gradients between opposite edges, a slope rising to the north
      is labelled N and the same slope rising to the south is labelled S. */
  lemma CorrectedAspectSeesNorthSouth(centre: real, low: real, high: real, atan2Deg: (real, real) -> real)
    requires low != 0.0 && high != 0.0 && low < high
    requires Atan2OnAxis(atan2Deg)
    ensures CalculateAspectCorrected(NorthSouthTilt(centre, low, high), atan2Deg) == North
    ensures CalculateAspectCorrected(NorthSouthTilt(centre, high, low), atan2Deg) == South
  {
    var d := high - low;
    var up := NorthSouthTilt(centre, low, high);
    var down := NorthSouthTilt(centre, high, low);
    assert Corner(up, 1) == low && Corner(up, 2) == high && Corner(up, 3) == low && Corner(up, 4) == high;
    assert Corner(down, 1) == high && Corner(down, 2) == low && Corner(down, 3) == high && Corner(down, 4) == low;
    assert (high + high) / 2.0 - (low + low) / 2.0 == d;
  }

  // ---------------------------------------------------------------- relief

  function SeqMin(s: seq<real>): (m: real)
    requires |s| > 0
    ensures forall i :: 0 <= i < |s| ==> m <= s[i]
    ensures exists i :: 0 <= i < |s| && m == s[i]
  {
    if |s| == 1 then s[0] else Min(s[0], SeqMin(s[1..]))
  }

  function SeqMax(s: seq<real>): (m: real)
    requires |s| > 0
    ensures forall i :: 0 <= i < |s| ==> s[i] <= m
    ensures exists i :: 0 <= i < |s| && m == s[i]
  {
    if |s| == 1 then s[0] else Max(s[0], SeqMax(s[1..]))
  }

  /** maxElevation − minElevation over the sampled points. */
  function Relief(elevations: seq<real>): (r: real)
    requires |elevations| > 0
    ensures r >= 0.0
    ensures forall i, j :: 0 <= i < |elevations| && 0 <= j < |elevations| ==> elevations[i] - elevations[j] <= r
  {
    SeqMax(elevations) - SeqMin(elevations)
  }

  /** The diagonal of the bounding box in metres, 111 km per degree; `sqrt` is Math.sqrt. */
  function HorizontalDistance(bbox: BBox, sqrt: real -> real): real {
    var dx := (bbox.maxLng - bbox.minLng) * 111000.0;
    var dy := (bbox.maxLat - bbox.minLat) * 111000.0;
    sqrt(dx * dx + dy * dy)
  }

  /** `fetchTerrainData` after a successful request, aspect taken with
      `calculateAspect` as written. `slopeAngle(rise, run)` is atan(rise / run) in
      degrees, with JavaScript's division by zero. */
  function TerrainFromElevations(elevations: seq<real>, bbox: BBox, sqrt: real -> real,
                                 slopeAngle: (real, real) -> real, atan2Deg: (real, real) -> real): (t: TerrainData)
    requires |elevations| > 0
    ensures t.elevation_m == Round(elevations[0], 1.0)
    ensures t.slope_degrees == Round(slopeAngle(Relief(elevations), HorizontalDistance(bbox, sqrt)), 10.0)
    ensures t.aspect == CalculateAspect(elevations, atan2Deg)
  {
    var centerElevation := elevations[0];
    var verticalDistance := SeqMax(elevations) - SeqMin(elevations);
    var slopeDegrees := slopeAngle(verticalDistance, HorizontalDistance(bbox, sqrt));
    TerrainData(Round(slopeDegrees, 10.0), CalculateAspect(elevations, atan2Deg), Round(centerElevation, 1.0))
  }

  /** Through `calculateAspect` as written, the fetched terrain of a slope
      rising to the north and of the same slope rising to the south carry the
      same aspect. */
  lemma FetchedAspectBlindToNorthSouth(centre: real, low: real, high: real, bbox: BBox, sqrt: real -> real,
                                       slopeAngle: (real, real) -> real, atan2Deg: (real, real) -> real)
    requires low != 0.0 && high != 0.0
    ensures TerrainFromElevations(NorthSouthTilt(centre, low, high), bbox, sqrt, slopeAngle, atan2Deg).aspect
         == TerrainFromElevations(NorthSouthTilt(centre, high, low), bbox, sqrt, slopeAngle, atan2Deg).aspect
  {
    AspectBlindToNorthSouth(centre, low, high, atan2Deg);
  }

  // ------------------------------------------------------------- synthetic

  /** `generateMockTerrainData`; the three draws are its Math.random() results
      in order, and `aspectDraw` in [0, 1) picks one of the eight labels. */
  function GenerateMockTerrainData(centroid: Coordinates, elevationDraw: real, slopeDraw: real,
                                   aspectDraw: real): (t: TerrainData)
    requires 0.0 <= aspectDraw < 1.0
    ensures 0 <= (aspectDraw * 8.0).Floor < 8 && t.aspect == CompassLabels[(aspectDraw * 8.0).Floor]
    ensures t.slope_degrees == Round(5.0 + slopeDraw * 25.0, 10.0)
    ensures t.elevation_m == Round(1200.0 + Abs(centroid.lat - 14.5) * 100.0 + (elevationDraw - 0.5) * 400.0, 1.0)
  {
    var baseElevation := 1200.0 + Abs(centroid.lat - 14.5) * 100.0;
    var elevation := baseElevation + (elevationDraw - 0.5) * 400.0;
    var slope := 5.0 + slopeDraw * 25.0;
    var index := (aspectDraw * |CompassLabels| as real).Floor;
    assert 0.0 <= aspectDraw * 8.0 < 8.0;
    TerrainData(Round(slope, 10.0), CompassLabels[index], Round(elevation, 1.0))
  }

  /** With a slope draw in [0, 1) the synthetic slope lies in [5°, 30°], so
      synthetic terrain is always IFM-suitable and never 'Flat' or 'Very Steep'. */
  lemma MockTerrainSlope(centroid: Coordinates, elevationDraw: real, slopeDraw: real, aspectDraw: real)
    requires 0.0 <= slopeDraw < 1.0 && 0.0 <= aspectDraw < 1.0
    ensures var t := GenerateMockTerrainData(centroid, elevationDraw, slopeDraw, aspectDraw);
            && 5.0 <= t.slope_degrees <= 30.0
            && IsIFMSuitable(t)
            && ClassifySlope(t.slope_degrees) != Flat && ClassifySlope(t.slope_degrees) != VerySteep
  {
    var slope := 5.0 + slopeDraw * 25.0;
    RoundMonotone(5.0, slope, 10.0);
    RoundMonotone(slope, 30.0, 10.0);
    RoundOnGrid(50, 10.0);
    RoundOnGrid(300, 10.0);
  }

  /** `fetchTerrainData`: a request that throws falls back to the synthetic terrain. */
  function FetchTerrainData(centroid: Coordinates, bbox: BBox, response: Option<seq<real>>,
                            sqrt: real -> real, slopeAngle: (real, real) -> real, atan2Deg: (real, real) -> real,
                            elevationDraw: real, slopeDraw: real, aspectDraw: real): (t: TerrainData)
    requires response.Some? ==> |response.value| > 0
    requires 0.0 <= aspectDraw < 1.0
    ensures response.None? ==> t == GenerateMockTerrainData(centroid, elevationDraw, slopeDraw, aspectDraw)
    ensures response.Some? ==> t.elevation_m == Round(response.value[0], 1.0)
    ensures response.Some? ==> t.aspect == CalculateAspect(response.value, atan2Deg)
  {
    match response
    case None => GenerateMockTerrainData(centroid, elevationDraw, slopeDraw, aspectDraw)
    case Some(elevations) => TerrainFromElevations(elevations, bbox, sqrt, slopeAngle, atan2Deg)
  }
}

=== FILE: types.dfy ===
/** The records of the MRV pipeline (src/types/index.ts). Field names follow
    the source, since the MRV summary's field names are its export format. */
module Types {
  import opened Common

  datatype Coordinates = Coordinates(lng: real, lat: real)

  /** One `[lng, lat]` position of a GeoJSON ring; further entries are ignored. */
  datatype Position = Position(lng: real, lat: real)

  /** A GeoJSON polygon: ring 0 is the outer boundary, the others are holes. */
  datatype Polygon = Polygon(coordinates: seq<seq<Position>>)

  /** `[minLng, minLat, maxLng, maxLat]` as the geometry library returns it. */
  datatype BBox = BBox(minLng: real, minLat: real, maxLng: real, maxLat: real)

  /** What the geometry library answers for a polygon it accepts: area in
      hectares, centroid and bounding box. */
  datatype Geometry = Geometry(area_ha: real, centroid: Coordinates, bbox: BBox)

  datatype FarmerInfo = FarmerInfo(name: string, contact: Option<string>, organization: Option<string>)

  datatype Farm = Farm(
    id: string,
    name: string,
    farmer_info: FarmerInfo,
    polygon: Polygon,
    centroid: Coordinates,
    area_ha: real,
    altitude_m: real,
    country: string,
    region: string,
    created_at: string,
    updated_at: string)

  datatype VegetationIndex = VegetationIndex(date: string, ndvi: real, evi: real, cloud_cover: real)

  datatype VegetationData = VegetationData(
    current_ndvi: real,
    current_evi: real,
    ndvi_trend: real,
    evi_trend: real,
    stress_index: Num,
    time_series: seq<VegetationIndex>)

  datatype RainfallData = RainfallData(date: string, precipitation_mm: real, anomaly: real)

  datatype TemperatureData = TemperatureData(date: string, temp_c: real, anomaly: real)

  datatype ClimateData = ClimateData(
    rainfall_anomaly: real,
    temperature_anomaly: real,
    et0: real,
    rainfall_time_series: seq<RainfallData>,
    temperature_time_series: seq<TemperatureData>)

  datatype SOCData = SOCData(baseline_0_30cm: real, projected: real, delta: real, uncertainty: real)

  datatype ForestChangeData = ForestChangeData(
    loss_detected: bool,
    gain_detected: bool,
    loss_area_ha: real,
    gain_area_ha: real,
    last_change_date: Option<string>)

  /** The eight compass labels 'N', 'NE', ..., 'NW'. */
  datatype Aspect = North | NorthEast | East | SouthEast | South | SouthWest | West | NorthWest

  datatype TerrainData = TerrainData(slope_degrees: real, aspect: Aspect, elevation_m: real)

  /** The closed enumerations of src/types/index.ts:84-85. */
  datatype AlertType = VegetationStress | ForestLoss | Drought | TemperatureAnomaly

  datatype Severity = Low | Medium | High

  datatype Alert = Alert(id: string, kind: AlertType, severity: Severity, message: string, date: string)

  datatype NdviSummary = NdviSummary(current: real, trend: real)

  datatype EviSummary = EviSummary(current: real)

  datatype ForestFlags = ForestFlags(loss: bool, gain: bool)

  datatype FarmMRVData = FarmMRVData(
    farm_id: string,
    area_ha: real,
    ndvi: NdviSummary,
    evi: EviSummary,
    rainfall_anomaly: real,
    temperature_anomaly: real,
    soc_baseline: real,
    forest_change: ForestFlags,
    alerts: seq<Alert>,
    last_updated: string)

  datatype FarmDetailData = FarmDetailData(
    farm: Farm,
    vegetation: VegetationData,
    climate: ClimateData,
    soc: SOCData,
    forest_change: ForestChangeData,
    terrain: TerrainData,
    alerts: seq<Alert>,
    mrv_summary: FarmMRVData)
}

=== FILE: utils.dfy ===
/** Statistics and text helpers of src/lib/utils.ts: z-score, SPI, the
    least-squares trend, WKT serialisation and the CSV text of an export. */
module Utils {
  import opened Common
  import opened Types

  // ---------------------------------------------------------------- z-score

  /** `calculateZScore`: how many standard deviations `value` lies from `mean`;
      a zero standard deviation gives 0 whatever value and mean are. */
  function ZScore(value: real, mean: real, stdDev: real): (r: real)
    ensures stdDev == 0.0 ==> r == 0.0
    ensures stdDev != 0.0 ==> r * stdDev == value - mean
  {
    if stdDev == 0.0 then 0.0 else (value - mean) / stdDev
  }

  /** With a positive standard deviation the z-score is strictly increasing in the value. */
  lemma ZScoreStrictlyIncreasing(v1: real, v2: real, mean: real, stdDev: real)
    requires stdDev > 0.0 && v1 < v2
    ensures ZScore(v1, mean, stdDev) < ZScore(v2, mean, stdDev)
  {
    assert (v1 - mean) / stdDev < (v2 - mean) / stdDev by {
      assert v1 - mean < v2 - mean;
    }
  }

  /** `calculateSPI`: the standardized precipitation index is the z-score of
      the precipitation; it is positive exactly when the precipitation is above
      the mean (for a positive standard deviation). */
  function CalculateSPI(precipitation: real, mean: real, stdDev: real): (r: real)
    ensures r == ZScore(precipitation, mean, stdDev)
    ensures stdDev > 0.0 ==> (r > 0.0 <==> precipitation > mean)
  {
    ZScore(precipitation, mean, stdDev)
  }

  /** SPI is monotone in precipitation when mean and standard deviation are fixed. */
  lemma SPIStrictlyIncreasing(p1: real, p2: real, mean: real, stdDev: real)
    requires stdDev > 0.0 && p1 < p2
    ensures CalculateSPI(p1, mean, stdDev) < CalculateSPI(p2, mean, stdDev)
  {
    ZScoreStrictlyIncreasing(p1, p2, mean, stdDev);
  }

  // ------------------------------------------------------------------ trend

  /** Mean of the indices 0 .. n-1. */
  function XMean(n: nat): real {
    (n as real - 1.0) / 2.0
  }

  /** Σ_{i<k} (i − xm)·(s[i] − ym), the numerator the trend loop accumulates. */
  function CrossDev(s: seq<real>, xm: real, ym: real, k: nat): real
    requires k <= |s|
  {
    if k == 0 then 0.0 else CrossDev(s, xm, ym, k - 1) + ((k - 1) as real - xm) * (s[k - 1] - ym)
  }

  /** Σ_{i<k} (i − xm)², the denominator the trend loop accumulates. */
  function SqDev(xm: real, k: nat): real {
    if k == 0 then 0.0 else SqDev(xm, k - 1) + ((k - 1) as real - xm) * ((k - 1) as real - xm)
  }

  /** The ordinary-least-squares slope of the values against their 0-based
      positions, 0 for fewer than two values or a zero denominator. */
  function OlsSlope(values: seq<real>): real {
    if |values| < 2 then 0.0
    else
      var n := |values|;
      var den := SqDev(XMean(n), n);
      if den == 0.0 then 0.0 else CrossDev(values, XMean(n), Mean(values), n) / den
  }

  /** `calculateTrend`: the loop of src/lib/utils.ts:55-58, proved to compute
      the least-squares slope. */
  method CalculateTrend(values: seq<real>) returns (trend: real)
    ensures trend == OlsSlope(values)
    ensures |values| < 2 ==> trend == 0.0
  {
    if |values| < 2 {
      return 0.0;
    }
    var n := |values|;
    var xMean := (n as real - 1.0) / 2.0;
    var yMean := Sum(values) / n as real;
    var numerator := 0.0;
    var denominator := 0.0;
    for i := 0 to n
      invariant numerator == CrossDev(values, xMean, yMean, i)
      invariant denominator == SqDev(xMean, i)
    {
      numerator := numerator + (i as real - xMean) * (values[i] - yMean);
      denominator := denominator + (i as real - xMean) * (i as real - xMean);
    }
    trend := if denominator == 0.0 then 0.0 else numerator / denominator;
  }

  lemma {:induction false} SqDevAtLeastFirstTerm(xm: real, k: nat)
    requires k >= 1
    ensures SqDev(xm, k) >= xm * xm
  {
    if k > 1 {
      SqDevAtLeastFirstTerm(xm, k - 1);
      var d := (k - 1) as real - xm;
      assert d * d >= 0.0;
    }
  }

  /** For two or more values the denominator is strictly positive, so the
      zero-denominator branch of `calculateTrend` is unreachable. */
  lemma TrendDenominatorPositive(n: nat)
    requires n >= 2
    ensures SqDev(XMean(n), n) > 0.0
  {
    var xm := XMean(n);
    SqDevAtLeastFirstTerm(xm, n);
    assert xm >= 0.5;
    assert xm * xm >= 0.25;
  }

  lemma {:induction false} SumOfLine(s: seq<real>, a: real, b: real, k: nat)
    requires k <= |s|
    requires forall i :: 0 <= i < |s| ==> s[i] == a + b * i as real
    ensures SumTo(s, k) == k as real * a + b * (k as real * (k as real - 1.0) / 2.0)
  {
    if k > 0 {
      SumOfLine(s, a, b, k - 1);
      var m := (k - 1) as real;
      assert SumTo(s, k) == m * a + b * (m * (m - 1.0) / 2.0) + (a + b * m);
      assert m * (m - 1.0) / 2.0 + m == (m + 1.0) * m / 2.0;
    }
  }

  lemma {:induction false} CrossDevOfLine(s: seq<real>, a: real, b: real, xm: real, k: nat)
    requires k <= |s|
    requires forall i :: 0 <= i < |s| ==> s[i] == a + b * i as real
    ensures CrossDev(s, xm, a + b * xm, k) == b * SqDev(xm, k)
  {
    if k > 0 {
      CrossDevOfLine(s, a, b, xm, k - 1);
      var d := (k - 1) as real - xm;
      assert s[k - 1] - (a + b * xm) == b * d;
      assert d * (b * d) == b * (d * d);
    }
  }

  /** The trend of the exact line `a + b·i` (two or more points) is exactly `b`. */
  lemma TrendOfLine(s: seq<real>, a: real, b: real)
    requires |s| >= 2
    requires forall i :: 0 <= i < |s| ==> s[i] == a + b * i as real
    ensures OlsSlope(s) == b
  {
    var n := |s|;
    var xm := XMean(n);
    SumOfLine(s, a, b, n);
    var nr := n as real;
    assert Sum(s) == nr * a + b * (nr * (nr - 1.0) / 2.0);
    assert Mean(s) == a + b * xm by {
      assert (nr * a + b * (nr * (nr - 1.0) / 2.0)) / nr == a + b * ((nr - 1.0) / 2.0);
    }
    CrossDevOfLine(s, a, b, xm, n);
    TrendDenominatorPositive(n);
    var den := SqDev(xm, n);
    assert (b * den) / den == b;
  }

  /** A constant series has trend 0, whatever its length. */
  lemma TrendOfConstant(s: seq<real>, c: real)
    requires forall i :: 0 <= i < |s| ==> s[i] == c
    ensures OlsSlope(s) == 0.0
  {
    if |s| >= 2 {
      TrendOfLine(s, c, 0.0);
    }
  }

  /** A strictly increasing arithmetic series has a positive trend. */
  lemma TrendOfIncreasingLinePositive(s: seq<real>, a: real, b: real)
    requires |s| >= 2 && b > 0.0
    requires forall i :: 0 <= i < |s| ==> s[i] == a + b * i as real
    ensures OlsSlope(s) > 0.0
  {
    TrendOfLine(s, a, b);
  }

  lemma {:induction false} CrossDevShift(s: seq<real>, t: seq<real>, xm: real, ym: real, c: real, k: nat)
    requires |s| == |t| && k <= |s|
    requires forall i :: 0 <= i < |s| ==> t[i] == s[i] + c
    ensures CrossDev(t, xm, ym + c, k) == CrossDev(s, xm, ym, k)
  {
    if k > 0 {
      CrossDevShift(s, t, xm, ym, c, k - 1);
      var d := (k - 1) as real - xm;
      var e := s[k - 1] - ym;
      assert t[k - 1] - (ym + c) == e;
      assert CrossDev(t, xm, ym + c, k) == CrossDev(t, xm, ym + c, k - 1) + d * e;
      assert CrossDev(s, xm, ym, k) == CrossDev(s, xm, ym, k - 1) + d * e;
    }
  }

  /** Adding the same constant to every value leaves the trend unchanged. */
  lemma TrendShiftInvariant(s: seq<real>, t: seq<real>, c: real)
    requires |s| == |t|
    requires forall i :: 0 <= i < |s| ==> t[i] == s[i] + c
    ensures OlsSlope(t) == OlsSlope(s)
  {
    var n := |s|;
    if n >= 2 {
      SumToShift(s, t, n, c);
      var nr := n as real;
      assert Mean(t) == Mean(s) + c by {
        assert (Sum(s) + nr * c) / nr == Sum(s) / nr + c;
      }
      CrossDevShift(s, t, XMean(n), Mean(s), c, n);
    }
  }

  // -------------------------------------------------------------------- WKT

  /** The `"lng lat"` text of every position of a ring; `show` renders a number
      as JavaScript's template literal does. */
  function PointTexts(ring: seq<Position>, show: real -> string): (r: seq<string>)
    ensures |r| == |ring|
  {
    seq(|ring|, i requires 0 <= i < |ring| => show(ring[i].lng) + " " + show(ring[i].lat))
  }

  /** `polygonToWKT`: only the outer ring is written; a polygon without rings
      makes the source throw (None here). */
  function PolygonToWkt(polygon: Polygon, show: real -> string): (r: Option<string>)
    ensures r.None? <==> |polygon.coordinates| == 0
    ensures r.Some? ==> |r.value| >= 11 && r.value[..9] == "POLYGON((" && r.value[|r.value| - 2..] == "))"
  {
    if |polygon.coordinates| == 0 then None
    else Some("POLYGON((" + Join(PointTexts(polygon.coordinates[0], show), ", ") + "))")
  }

  /** The holes of a polygon never influence its WKT text. */
  lemma WktUsesOnlyOuterRing(p: Polygon, q: Polygon, show: real -> string)
    requires |p.coordinates| > 0 && |q.coordinates| > 0
    requires p.coordinates[0] == q.coordinates[0]
    ensures PolygonToWkt(p, show) == PolygonToWkt(q, show)
  {
  }

  // -------------------------------------------------------------------- CSV

  /** A property value of an exported record with its text: `String(value)`
      for a primitive (undefined included), `JSON.stringify(value)` for an object or null. */
  datatype CellValue = Primitive(text: string) | Structured(json: string) {
    function Text(): string {
      match this
      case Primitive(t) => t
      case Structured(j) => j
    }
  }

  /** A record's own properties in insertion order, as `Object.keys` lists them. */
  type Row = seq<(string, CellValue)>

  function Keys(row: Row): (r: seq<string>)
    ensures |r| == |row|
  {
    seq(|row|, i requires 0 <= i < |row| => row[i].0)
  }

  /** The text of `row[header]`; a missing property is `undefined`. */
  function CellText(row: Row, header: string): string {
    match FirstIndex(row, (p: (string, CellValue)) => p.0 == header)
    case None => "undefined"
    case Some(i) => row[i].1.Text()
  }

  function RowLine(row: Row, headers: seq<string>): string {
    Join(seq(|headers|, j requires 0 <= j < |headers| => CellText(row, headers[j])), ",")
  }

  /** The lines of the CSV export: the header line of the first record's keys,
      then one line per record. */
  function CsvLines(data: seq<Row>): (r: seq<string>)
    requires |data| > 0
    ensures |r| == |data| + 1
    ensures r[0] == Join(Keys(data[0]), ",")
  {
    var headers := Keys(data[0]);
    [Join(headers, ",")] + seq(|data|, i requires 0 <= i < |data| => RowLine(data[i], headers))
  }

  /** The text `downloadCSV` writes (src/lib/utils.ts:106-118); an empty export
      writes nothing (None). */
  function CsvContent(data: seq<Row>): (r: Option<string>)
    ensures r.None? <==> |data| == 0
  {
    if |data| == 0 then None else Some(Join(CsvLines(data), "\n"))
  }

  lemma {:induction false} JoinAvoids(parts: seq<string>, sep: string, c: char)
    requires Count(c, sep) == 0
    requires forall i :: 0 <= i < |parts| ==> Count(c, parts[i]) == 0
    ensures Count(c, Join(parts, sep)) == 0
  {
    if |parts| > 1 {
      JoinAvoids(parts[1..], sep, c);
      CountAppend(c, parts[0], sep);
      CountAppend(c, parts[0] + sep, Join(parts[1..], sep));
    }
  }

  predicate NoNewline(s: string) {
    Count('\n', s) == 0
  }

  /** Every cell text and key of every record is free of line breaks. */
  predicate PlainData(data: seq<Row>) {
    forall i, k :: 0 <= i < |data| && 0 <= k < |data[i]| ==>
      NoNewline(data[i][k].0) && NoNewline(data[i][k].1.Text())
  }

  lemma CellTextPlain(data: seq<Row>, i: nat, header: string)
    requires i < |data| && PlainData(data)
    ensures NoNewline(CellText(data[i], header))
  {
    assert Count('\n', "undefined") == 0;
  }

  lemma RowLinePlain(data: seq<Row>, i: nat, headers: seq<string>)
    requires i < |data| && PlainData(data)
    ensures NoNewline(RowLine(data[i], headers))
  {
    var cells := seq(|headers|, j requires 0 <= j < |headers| => CellText(data[i], headers[j]));
    forall j | 0 <= j < |cells|
      ensures Count('\n', cells[j]) == 0
    {
      CellTextPlain(data, i, headers[j]);
    }
    assert Count('\n', ",") == 0;
    JoinAvoids(cells, ",", '\n');
  }

  /** When no key or value contains a line break, an export of n records has
      exactly n line breaks: one header line and one line per record. */
  lemma CsvLineCount(data: seq<Row>)
    requires |data| > 0 && PlainData(data)
    ensures CsvContent(data).Some? && Count('\n', CsvContent(data).value) == |data|
  {
    var lines := CsvLines(data);
    var headers := Keys(data[0]);
    assert Count('\n', ",") == 0;
    forall j | 0 <= j < |headers|
      ensures Count('\n', headers[j]) == 0
    {
      assert headers[j] == data[0][j].0;
    }
    JoinAvoids(headers, ",", '\n');
    forall k | 0 <= k < |lines|
      ensures Count('\n', lines[k]) == 0
    {
      if k > 0 {
        assert lines[k] == RowLine(data[k - 1], headers);
        RowLinePlain(data, k - 1, headers);
      }
    }
    JoinSeparatorCount(lines, '\n');
  }
}
